=== FILE: README.md ===
# Faral-Shop order backend in Dafny

A model of the core of the Faral-Shop grocery backend, a Django REST service. The model has three parts:

- **Order placement.** `OrderSerializer` checks the cart: it must not be empty and must name only active products. Its `create` then runs one database transaction:
  - it finds or creates the customer by phone;
  - it optionally creates a delivery address. As written, no request with an address gets through (see "## Findings"). The model takes the address as evidently intended: the payload carries no customer, and the order's customer owns the new address;
  - it creates the order header with total 0;
  - for each cart line, in order, it decrements the product's stock only when the stock covers the quantity, snapshots the product's price into an order item and adds price × quantity to the total;
  - it stores the total.

  Any failure rolls every change back.
- **Views.** The product list and detail show only active products. The order list is newest first and can be narrowed by customer phone. `update_status` sets one of the six order statuses.
- **Catalog import.** The `import_products` management command reads CSV rows and upserts products by stripped name. It gets or creates each category by stripped name and counts the products it created and updated. It is not one transaction: rows before a failing row stay imported.

The model is organised as follows:

- The database is a value (`Models.Db`: seven tables, each a map from primary key to row plus the next key to hand out).
- The database is also a mutable object (`Database.Store`, one field per table). `Store.Restore` is the transaction rollback.
- Every operation that changes the store has two forms:
  - a method that updates the store (`Serializers.PlaceOrder` and `ImportProducts.Handle`, which loop over the cart lines and the CSV rows, and `Views.UpdateStatusInPlace`);
  - a function it is proved against (`Serializers.Place`, `ImportProducts.Import`, `Views.UpdateStatus`).

  The properties are proved about the functions.
- Money is a whole number of cents. `Models.IsMoney` is the range of a `DecimalField(max_digits=10, decimal_places=2)`.
- Clock readings (`placed_at`) and the existence of the CSV file are parameters.

Modules:

- `Wrappers` holds `Option` and `Result`.
- `Text` holds Python's `str.strip`, `int(str)` and the decimal conversion of a price string, and `str.lower` on ASCII letters. Lowering only ASCII letters decides membership in `('1', 'true', 'yes')` exactly as Python does: the only non-ASCII characters Python lowers into ASCII are U+0130 and U+212A, and neither yields one of those words.
- `Models`, `Database`, `Serializers`, `OrderProperties`, `Views` and `ImportProducts` follow the repository's files.

## Model

| member | source | states |
|---|---|---|
| Models.StatusFromCode | shop/models.py:42-56 | the status whose stored value is the given text, and `None` exactly when no status has that value |
| Models.StatusCodeRoundTrip | shop/models.py:42-56 | reading back the stored value of any status gives that status, so the six values are distinct |
| Models.StatusChoicesExact | shop/models.py:49-56 | the choices list has six entries, holds every status and repeats none |
| Models.NewProduct | shop/models.py:10-18 | a product created with only a name and a price has stock 0, is active, and has no category, an empty description and an empty unit |
| Models.NewOrder | shop/models.py:58-65 | an order header as created holds total 0 and status NEW, the given payment method or 'COD' when none is given, and the given customer, address, placement time, schedule and notes |
| Models.DeleteCategory | shop/models.py:11 | deleting a category removes only that category and leaves every other category and both next keys as they were; every product keeps its key, and the products that were filed under it lose their category (SET_NULL) |
| Models.DeleteProduct | shop/models.py:79 | deleting a product removes only that product; every order item stays, and the items that used it lose their product (SET_NULL); the next keys of the tables it touches stay |
| Models.DeleteAddress | shop/models.py:59 | deleting an address removes only that address; every order stays, and the orders delivered to it lose their address (SET_NULL); the next keys of the tables it touches stay |
| Models.DeleteCustomer | shop/models.py:32-59 | deleting a customer removes exactly that customer's addresses (CASCADE); every order stays, loses that customer (SET_NULL) and loses any of the deleted addresses (SET_NULL); the next keys of the tables it touches stay |
| Models.DeleteOrder | shop/models.py:78-87 | deleting an order removes exactly its items and its payments (CASCADE) and nothing else; the next keys of the tables it touches stay |
| Models.EmptyDbValid | shop/models.py:4-95 | the empty database satisfies the invariant: keys below the next key, every foreign key resolves, and amounts fit their decimal columns |
| Models.DeleteCategoryPreservesValid | shop/models.py:11 | deleting a category leaves no dangling foreign key |
| Models.DeleteProductPreservesValid | shop/models.py:79 | deleting a product leaves no dangling foreign key |
| Models.DeleteAddressPreservesValid | shop/models.py:59 | deleting an address leaves no dangling foreign key |
| Models.DeleteCustomerPreservesValid | shop/models.py:32-59 | deleting a customer, with its cascade and its SET_NULLs, leaves no dangling foreign key |
| Models.DeleteOrderPreservesValid | shop/models.py:78-87 | deleting an order with its items and payments leaves no dangling foreign key |
| Database.Store.constructor | shop/models.py:4-95 | a new store holds the empty database |
| Database.Store.Restore | shop/serializers.py:60 | after a rollback every table is exactly as in the saved state |
| Serializers.FirstInvalidLine | shop/serializers.py:32 | the first cart line whose product is not active; `None` exactly when every line names an active product |
| Serializers.ValidateItems | shop/serializers.py:32-52 | validation passes exactly when the cart is non-empty and every line names an active product; an empty cart gives the empty-cart error |
| Serializers.ResolveCustomer | shop/serializers.py:61-64 | get_or_create of the customer by phone on the database value; its properties are stated by `OrderProperties.PlaceCustomer` and `OrderProperties.SamePhoneSameCustomer` |
| Serializers.AddLine | shop/serializers.py:76-90 | one pass of the cart loop: refuses a quantity below 1, refuses a product whose stock does not cover it, otherwise decrements the stock, creates the item at the current price and adds to the total; stated by the `OrderProperties.AddLines…` lemmas |
| Serializers.AddLines | shop/serializers.py:76-90 | the cart loop, line by line, stopping at the first failing line; stated by `Serializers.AddLinesFailureSticks` and the `OrderProperties.AddLines…` lemmas |
| Serializers.Create | shop/serializers.py:54-95 | `create`: customer, optional address, header with total 0, the cart loop, then the total; the address is handled as intended, with the as-written behaviour under "## Findings"; stated by the `OrderProperties.Place…` lemmas |
| Serializers.Place | shop/serializers.py:49-95 | validation and then `create`, with the address payload as intended rather than as written (see "## Findings"); the specification `Serializers.PlaceOrder` is proved against, with its properties stated by the `OrderProperties.Place…` lemmas |
| Serializers.ValidateAddressAsWritten | shop/serializers.py:25-42 | as written, a nested address is valid exactly when it carries a `customer` |
| Serializers.CreateAddressAsWritten | shop/serializers.py:69 | as written, creating an address from a payload that carries `customer` always raises, because the keyword arrives twice |
| Serializers.AddressNeverStoredAsWritten | shop/serializers.py:25-69 | as written, no address payload gets through both validation and `create` |
| Serializers.TestAddressRejectedAsWritten | shop/tests.py:14 | as written, the address in the repository's own order test is rejected for lacking `customer` |
| Serializers.AddLinesFailureSticks | shop/serializers.py:76-86 | once a cart line fails, the loop's result is that failure, whatever lines follow |
| Serializers.GetOrCreateCustomer | shop/serializers.py:61-64 | get_or_create by phone on the store: with no match it creates the customer from the request, with one match it reuses it, with several it fails and changes nothing |
| Serializers.CreateHeader | shop/serializers.py:66-72 | the store gains the address when one is given and then the order header, and the method returns the header's key |
| Serializers.AddLinesInPlace | shop/serializers.py:74-90 | the loop over the cart lines leaves the store, the total and the created item keys exactly as the loop function says, and never touches the order table |
| Serializers.PlaceOrder | shop/serializers.py:49-95 | the request's outcome and the new store are exactly what `Place` gives; on any error the store is as before (rollback) |
| OrderProperties.AddLinesProducts | shop/serializers.py:83 | the loop changes only product stocks, each by exactly the total quantity its lines ask |
| OrderProperties.AddLinesFrame | shop/serializers.py:76-90 | the loop leaves every table except products and items unchanged |
| OrderProperties.AddLinesItemKeys | shop/serializers.py:89 | the loop hands out one fresh item key per line, consecutively, and records them in line order |
| OrderProperties.AddLinesItemRows | shop/serializers.py:88-89 | the item for line k is stored under the k-th new key with the line's product and quantity at the product's price; older items are kept |
| OrderProperties.AddLinesTotal | shop/serializers.py:74-90 | the running total ends as the starting total plus price × quantity summed over the lines |
| OrderProperties.AddLinesSucceedsIff | shop/serializers.py:78-86 | the loop goes through exactly when every quantity is at least 1, every product exists, and no product is asked more than its stock summed over all lines |
| OrderProperties.PlaceSucceedsIff | shop/serializers.py:32-95 | an order is placed exactly when the cart is non-empty and names only active products, at most one customer has the phone, and the stock covers the lines; for a request with an address this is the intended behaviour, since as written such a request is always refused (see "## Findings") |
| OrderProperties.EmptyCartRejected | shop/serializers.py:50-51 | an empty cart is refused with the empty-cart error, whatever else the request holds |
| OrderProperties.PlaceStock | shop/serializers.py:83 | after a placement every product keeps all fields but stock, and its stock drops by exactly the total quantity its lines ask |
| OrderProperties.PlaceKeepsStockNonNegative | shop/serializers.py:83-86 | every product a line names ends with stock 0 or more; no stock rises, and a non-negative stock stays non-negative |
| OrderProperties.PlaceItems | shop/serializers.py:76-89 | there is one item per line in line order under fresh increasing keys; item k holds line k's product and quantity at the price before placement; older items are untouched |
| OrderProperties.PlaceOrderItems | shop/serializers.py:89 | the items that point at the new order are exactly the items created for its lines |
| OrderProperties.PlaceTotal | shop/serializers.py:88-94 | the stored total is catalog price × quantity summed over the lines, and equally unit price × quantity summed over the order's items |
| OrderProperties.PlaceOrderRow | shop/serializers.py:72-94 | the new order gets a fresh key, the resolved customer, the new address or null, the lines' total, status NEW, the given payment method or 'COD', and is placed now |
| OrderProperties.PlaceCustomer | shop/serializers.py:61-64 | the single customer with the phone is reused unchanged (name and email are not overwritten); with none, one is created from the request |
| OrderProperties.PlaceAddress | shop/serializers.py:66-69 | under the intended address handling of the "## Findings" row, an address row owned by the order's customer is created exactly when the request gives one; categories and payments are never touched |
| OrderProperties.SamePhoneSameCustomer | shop/serializers.py:61-64 | two orders in a row from the same phone share one customer record |
| OrderProperties.PlaceKeepsKeys | shop/serializers.py:54-95 | a placement keeps every key below its table's next key |
| OrderProperties.PlaceCustomerExists | shop/serializers.py:61-72 | the order's customer exists after the placement, whether it was found or created |
| OrderProperties.PlaceKeepsHeaderReferences | shop/serializers.py:61-72 | after a placement, products, addresses and orders still point at existing rows |
| OrderProperties.PlaceProductReferences | shop/serializers.py:83 | after a placement every product still names an existing category or none |
| OrderProperties.PlaceAddressReferences | shop/serializers.py:61-69 | the customer table only grows, and every address row still names an existing customer |
| OrderProperties.PlaceOrderReferences | shop/serializers.py:72 | every order row, the new one included, names an existing customer and address, or none |
| OrderProperties.PlaceKeepsItemReferences | shop/serializers.py:89 | items and payments still point at existing rows; the new items point at the new order and at their products |
| OrderProperties.PlaceKeepsReferences | shop/serializers.py:54-95 | after a placement every foreign key still names an existing row |
| OrderProperties.PlaceKeepsColumns | shop/serializers.py:88-89 | snapshot prices are catalog prices and fit the column; quantities are positive |
| OrderProperties.PlacePreservesValid | shop/serializers.py:54-95 | a placement keeps the database invariant |
| OrderProperties.OrderReducesStockExample | shop/tests.py:8-34 | the repository's test scenario, with an address given as the corrected serializer accepts it: the order is placed, stocks 5 and 2 become 3 and 1, and the total is 250.00 |
| Views.ActiveProducts | shop/views.py:8-10 | the product list holds exactly the active products |
| Views.ProductDetail | shop/views.py:12-14 | the detail view: the product when it exists and is active, otherwise not found; stated by `Views.ListDetailAndOrdersAgree` |
| Views.ListDetailAndOrdersAgree | shop/views.py:8-14 | the detail view finds exactly the products the list shows, and these are exactly the products a cart line may name |
| Views.InsertNewest | shop/views.py:17 | putting an order into a newest-first list keeps the list newest first, adds exactly that order and keeps it free of repeats |
| Views.NewestFirstPairwise | shop/views.py:17 | in a newest-first list any earlier order was placed no earlier than any later one |
| Views.ListBelow | shop/views.py:17-25 | the matching orders among the keys below a bound, each once, newest first |
| Views.ListOrders | shop/views.py:17-25 | the order list holds each order of the queryset exactly once, newest placement first |
| Views.ListOrdersFilter | shop/views.py:20-25 | with a non-empty phone, the list holds exactly the orders whose customer has that phone; with no phone or an empty one, every order |
| Views.UpdateStatusSets | shop/views.py:27-35 | any of the six statuses can be set from any status; the reply is ok with that status's code, and only the order's status changes: no order is added or removed and the next key stays |
| Views.UpdateStatusRejects | shop/views.py:32-36 | a missing, empty or unknown value gets the invalid-status reply and changes nothing |
| Views.UpdateStatusNotFound | shop/views.py:29 | an order outside the phone-filtered queryset is not found, whatever the value, and nothing changes |
| Views.UpdateStatusIdempotent | shop/views.py:27-36 | repeating an update gives the same database and the same reply |
| Views.UpdateStatusPreservesValid | shop/views.py:33-34 | a status update keeps the database invariant |
| Views.UpdateStatusInPlace | shop/views.py:27-36 | on the store, the reply and the new state are exactly what `UpdateStatus` gives |
| Views.UpdateStatus | shop/views.py:27-36 | `update_status` on the database value: not found outside the phone-filtered queryset, the status set for one of the six codes, the invalid-status reply otherwise; stated by the `Views.UpdateStatus…` lemmas |
| ImportProducts.PriceField | shop/management/commands/import_products.py:35 | a converted price always fits the two-place, ten-digit price column |
| ImportProducts.RowName | shop/management/commands/import_products.py:30-32 | `name`, or `Name` when `name` is blank; `None` when both are blank; stated by `ImportProducts.NameDefault` |
| ImportProducts.StockField | shop/management/commands/import_products.py:39 | the stock column through `int()`, 0 when blank, the stock error when it does not convert; stated by `ImportProducts.FieldDefaults` |
| ImportProducts.ActiveField | shop/management/commands/import_products.py:40 | the active flag: lowered text among `1`, `true`, `yes`, active when the column is absent, an error when it is `None`; stated by `ImportProducts.ActiveDefault` and `ImportProducts.ActiveFieldIgnoresCase` |
| ImportProducts.ReadRow | shop/management/commands/import_products.py:30-40 | a row read from the CSV fails its conversions only with their own errors, and a converted price fits the column |
| ImportProducts.ReadRows | shop/management/commands/import_products.py:29 | every CSV row is read, one for one: the k-th result is the k-th row read |
| ImportProducts.NameDefault | shop/management/commands/import_products.py:30-32 | a row is skipped exactly when both `name` and `Name` are missing or empty |
| ImportProducts.FieldDefaults | shop/management/commands/import_products.py:35-39 | a missing or empty stock gives 0, a missing price 0, a missing unit or description the empty text |
| ImportProducts.CategoryDefault | shop/management/commands/import_products.py:33-34 | a row without a category is filed under 'Uncategorized' |
| ImportProducts.ActiveDefault | shop/management/commands/import_products.py:40 | an absent `is_active` column means active and an empty one inactive; a `None` value (a short row) fails the row, as `None.lower()` raises |
| ImportProducts.ActiveFieldIgnoresCase | shop/management/commands/import_products.py:40 | the active flag ignores the case of ASCII letters |
| ImportProducts.CategoryStep | shop/management/commands/import_products.py:34 | get_or_create of a category reuses the one category with the name, or adds exactly one category with it under a fresh key; no other table changes and no other category is added |
| ImportProducts.SaveProductStep | shop/management/commands/import_products.py:42-52 | after update_or_create the product under the name holds the row's fields; it is new exactly when no product had the name; no other product changes and none is added |
| ImportProducts.SaveProductKeepsNamesUnique | shop/management/commands/import_products.py:42-52 | with unique names, update_or_create keeps them unique and adds the name to the product names |
| ImportProducts.ProductsNamedInUse | shop/management/commands/import_products.py:42-43 | no product matches a name exactly when the name is not among the product names |
| ImportProducts.SaveProductNames | shop/management/commands/import_products.py:42-52 | without any uniqueness assumption, update_or_create adds the name to the product names, removes none, and creates exactly when the name was not in use |
| ImportProducts.SaveProductPreservesValid | shop/management/commands/import_products.py:42-52 | update_or_create with an existing category and a price that fits keeps the database invariant |
| ImportProducts.GetOrCreateCategory | shop/management/commands/import_products.py:34 | get_or_create of a category by name; stated by `ImportProducts.CategoryStep` |
| ImportProducts.SaveProduct | shop/management/commands/import_products.py:42-52 | update_or_create of a product by name with the row's fields; stated by `ImportProducts.SaveProductStep` |
| ImportProducts.ImportRow | shop/management/commands/import_products.py:30-62 | the loop body on the database value, in the source's order: skip, category, stock, active flag, product lookup, price, save; stated by `ImportProducts.ImportRowUpserts` and `ImportProducts.ImportRowFails` |
| ImportProducts.ImportRows | shop/management/commands/import_products.py:29-66 | the loop over the rows, stopping at the first failing row and counting created and updated products; stated by `ImportProducts.FailureSticks`, `ImportProducts.CountersCoverNamedRows` and `ImportProducts.CreatedCountsNewNames` |
| ImportProducts.Import | shop/management/commands/import_products.py:18-66 | the command: a missing file is refused, otherwise every row read goes through the loop; the specification `ImportProducts.Handle` is proved against |
| ImportProducts.SkippedRowChangesNothing | shop/management/commands/import_products.py:30-32 | a row without a name changes nothing and is counted nowhere |
| ImportProducts.ImportRowUpserts | shop/management/commands/import_products.py:33-52 | a row that goes through leaves exactly one product under its stripped name, holding the row's fields and filed under the row's stripped category; it is created exactly when no product had the name; no other product changes or is added, at most that category is added, and no other table changes |
| ImportProducts.ImportRowFails | shop/management/commands/import_products.py:33-52 | a named row fails exactly when its category name or product name is held by several rows, the stock or the price does not convert, or `is_active` is `None`; a failing row changes nothing except adding the category it created when none had the name |
| ImportProducts.MissingFileChangesNothing | shop/management/commands/import_products.py:22-23 | a missing CSV file is refused before anything changes |
| ImportProducts.FailureSticks | shop/management/commands/import_products.py:29-66 | once a row fails, the rows after it are not looked at |
| ImportProducts.CountersCoverNamedRows | shop/management/commands/import_products.py:63-66 | a finished import counted every named row exactly once, as created or as updated |
| ImportProducts.ImportRowNamedOutcome | shop/management/commands/import_products.py:42-66 | a named row that goes through is created or updated, never skipped |
| ImportProducts.UniqueNameMatches | shop/management/commands/import_products.py:34-43 | with unique names, a name matches at most one category and at most one product, and exactly one product when the name is in use |
| ImportProducts.ImportRowKeepsNamesUnique | shop/management/commands/import_products.py:33-66 | with unique names a named row fails only on a conversion or a `None` active flag, keeps the names unique, adds its name to the product names and is created exactly when the name was new |
| ImportProducts.CreatedCountsNewNames | shop/management/commands/import_products.py:29-66 | for any catalog, duplicate names included, a finished import's product names are the old names plus the rows' names, and `created` counts exactly the rows' names that were new; names that were unique stay unique |
| ImportProducts.ImportRowNames | shop/management/commands/import_products.py:33-66 | without any uniqueness assumption, a named row that goes through adds its stripped name to the product names, removes none, and is created exactly when the name was not in use |
| ImportProducts.ImportRowsKeepsNamesUnique | shop/management/commands/import_products.py:29-66 | from a catalog with unique names, the import keeps them unique whether it finishes or stops at a failing row |
| ImportProducts.ImportPreservesValid | shop/management/commands/import_products.py:18-66 | the command keeps the database invariant, whether it finishes or stops at an error |
| ImportProducts.ImportRowsPreservesValid | shop/management/commands/import_products.py:29-66 | the loop keeps the database invariant over rows whose prices fit the column |
| ImportProducts.ImportRowPreservesValid | shop/management/commands/import_products.py:33-62 | one row keeps the database invariant |
| ImportProducts.ImportRowInPlace | shop/management/commands/import_products.py:30-62 | the loop body on the store leaves exactly the state and outcome that `ImportRow` gives |
| ImportProducts.Handle | shop/management/commands/import_products.py:18-66 | the command on the store ends in exactly the state, counters and error that `Import` gives |
| Text.StripDrops | shop/management/commands/import_products.py:34-43 | `strip()` keeps a slice of the text that neither starts nor ends with whitespace, with only whitespace around it |
| Text.StripTrimmed | shop/management/commands/import_products.py:34-39 | text that neither starts nor ends with whitespace is its own strip, and `int()` trims nothing from it |
| Text.StripIdempotent | shop/management/commands/import_products.py:34-43 | stripping twice is stripping once |
| Text.Strip | shop/management/commands/import_products.py:34 | `str.strip()`: Python's whitespace removed from both ends; stated by `Text.StripDrops`, `Text.StripTrimmed` and `Text.StripIdempotent` |
| Text.LowerForgetsCase | shop/management/commands/import_products.py:40 | lowering after raising or after lowering gives the same text |
| Text.NatTextRoundTrip | shop/management/commands/import_products.py:39 | reading back the decimal digits of a number gives the number |
| Text.ParseIntRoundTrip | shop/management/commands/import_products.py:39 | `int(str(i)) == i` for every integer |
| Text.ParseInt | shop/management/commands/import_products.py:39 | `int(str)`: after trimming whitespace other than U+001C to U+001F, an optionally signed run of digits with single underscores between digits, `None` otherwise; stated by `Text.ParseIntRoundTrip` and `Text.ParseIntRefusesSeparator` |
| Text.ParseIntRefusesSeparator | shop/management/commands/import_products.py:39 | `int()` refuses text that starts with one of the separators U+001C to U+001F, which `str.strip()` drops as whitespace |
| Text.NoUnderscoresDrops | shop/management/commands/import_products.py:35 | removing underscores leaves none and keeps text that has none |
| Text.ParseDecimal | shop/management/commands/import_products.py:35 | `Decimal(str)`: sign, digits with an optional point and an optional exponent, underscores dropped; stated through `Text.ParsePriceRoundTrip` |
| Text.ScaleHalfEven | shop/management/commands/import_products.py:35 | rounding a scaled coefficient to two places, half to even; stated by `Text.ScaleHalfEvenNearest` |
| Text.ScaleHalfEvenNearest | shop/management/commands/import_products.py:35 | rounding to two places is exact when scaling up; scaling down it is off by at most half a cent, and by exactly half only when the result is even |
| Text.ParsePrice | shop/management/commands/import_products.py:35 | a converted price fits the ten-digit, two-place column |
| Text.ParsePriceRoundTrip | shop/management/commands/import_products.py:35 | every amount that fits the column reads back from its own two-place text |
| Text.FindSpec | shop/management/commands/import_products.py:35 | the search for the decimal point or exponent mark gives the first such position, and nothing only when there is none |

## Left out

- Concurrency. The guarded `stock__gte` update is modelled as one atomic step on a single database; interleaving of concurrent requests is not modelled.
- Serializers.Place: models the address payload as evidently intended, without a `customer` key, and the order's customer owns the new address. As written, every request with an address is refused at validation or raises in `create`; the "## Findings" row and `Serializers.AddressNeverStoredAsWritten` record this. `OrderProperties.PlaceSucceedsIff` and `OrderProperties.PlaceAddress` describe the intended behaviour for such requests.
- `Serializers.Place`: `total_amount` is not checked against its ten-digit column. The total is kept as an unbounded whole number of cents, and the database error an oversized total would raise is not modelled.
- Field-level request validation (maximum lengths, e-mail format, required fields, type coercion) is not modelled. Requests arrive already typed; only the checks the core performs itself are modelled: the empty cart, the active product, and quantity ≥ 1 in `create`.
- `placed_at` is a parameter supplied by the caller. Two orders placed at the same time may be listed in either order; `Views.ListOrders` promises nothing about ties.
- Product images (`ImageField`, attaching an image file during import), the image directory option and the warning and success messages the import command prints are not modelled.
- CSV decoding and header handling are not modelled. A row arrives as a map from column name to text or `None` (the value `csv.DictReader` gives a column a short row does not reach), and the existence of the file is a parameter. Extra fields of a long row are not modelled.
- `ImportProducts.ReadRow` evaluates the stock and price conversions when the row is read. `ImportRow` then consults them in the order the loop body performs them: category, stock, active flag, product lookup, price. The error reported and the partial effects are therefore those of the source.
- `Text.ParseInt` and `Text.ParseDecimal` recognise ASCII digits only; Python also accepts other Unicode decimal digits. `str.strip()` and `Decimal()` trim Python's full `str.isspace` set. `int()` trims the same set except the separators U+001C to U+001F, as CPython does.
- Prices are rounded to two places half to even, with a precision of ten digits, as Django 4.2 and earlier do when saving a `DecimalField`. Later Django versions that do not quantize are not modelled.
- ImportProducts.ImportRow: does not model the range of the stock column. `Product.stock` is an `IntegerField`, 32-bit on PostgreSQL and MySQL and 64-bit on SQLite; an oversized `stock_estimate` makes `update_or_create` raise and stops the command, which the model lets through.
- Infinities and NaNs as price text are refused; the decimal column refuses them too.
- The notification hook, the admin registrations, the URL routes, the payment endpoints and the mobile login screen are outside the core and are not modelled.
- Stock may be negative. `Product.stock` is a plain `IntegerField`, which accepts negative values, so the model does not keep stock non-negative. `OrderProperties.PlaceKeepsStockNonNegative` shows that placing an order leaves every product it names at stock 0 or more and never drives a non-negative stock below zero.

## Findings

| source | as written | input that shows it | evidently intended | confidence | as-written member | corrected member |
|---|---|---|---|---|---|---|
| shop/serializers.py:25-69 | the nested `AddressSerializer` lists the non-null `customer` foreign key, so validation requires it; `create` then passes `customer=customer` and also the validated `customer`, so `Address.objects.create` gets the keyword twice and raises | the address `{"line1": "Addr", "city": "City", "pincode": "000001"}` of the repository's own test is rejected for lacking `customer`; any address that carries one makes `create` raise | the address payload carries no customer, and `create` attaches the order's customer | medium, not executed | Serializers.AddressNeverStoredAsWritten | OrderProperties.PlaceAddress |

=== FILE: database.dfy ===
/**
 * The database the ORM reads and writes: one mutable table per model.
 * `State` is the whole database as a value; `Restore` puts a saved value back, which is
 * how a transaction that raises is rolled back.
 */
module Database {
  import opened Models

  class Store {
    var categories: Table<Category>
    var products: Table<Product>
    var customers: Table<Customer>
    var addresses: Table<Address>
    var orders: Table<Order>
    var items: Table<OrderItem>
    var payments: Table<Payment>

    /** An empty database. */
    constructor ()
      ensures State() == EmptyDb
    {
      categories, products, customers := Table(map[], 0), Table(map[], 0), Table(map[], 0);
      addresses, orders, items, payments := Table(map[], 0), Table(map[], 0), Table(map[], 0), Table(map[], 0);
    }

    /** The contents of every table. */
    function State(): Db
      reads this
    {
      Db(categories, products, customers, addresses, orders, items, payments)
    }

    /** Puts every table back as it was in `saved` (a transaction rollback). */
    method Restore(saved: Db)
      modifies this
      ensures State() == saved
    {
      categories, products, customers := saved.categories, saved.products, saved.customers;
      addresses, orders, items, payments := saved.addresses, saved.orders, saved.items, saved.payments;
    }
  }
}

=== FILE: import_products.dfy ===
/**
 * The catalog import command: each CSV row, as a map from column name to value, is normalised and
 * upserted into the product table by stripped name, its category found or created by stripped
 * name. Rows without a name are skipped. The command is not one transaction: when a row fails,
 * the rows before it stay imported, and so does a category the failing row already created.
 *
 * A row is first read into `RowFields` (its columns with their defaults, and the results of the
 * `int()` conversion, of `.lower()` on the active flag and of the decimal conversion); `ImportRow`
 * then consults these in the order the loop body performs the steps, so the error a row reports
 * is the one the loop body meets first.
 */
module ImportProducts {
  import opened Wrappers
  import opened Models
  import opened Database
  import opened Text

  /**
   * One CSV row as `csv.DictReader` yields it: the value of each header column, `None` for a
   * column a short row does not reach.
   */
  type Row = map<string, Option<string>>

  datatype ImportError =
    | FileNotFound               // CommandError before the file is opened
    | BadStock(text: string)     // int() raised ValueError
    | BadPrice(text: string)     // the price did not convert to the decimal column
    | MissingActive              // `None.lower()` raised AttributeError
    | DuplicateCategories(name: string)  // get_or_create found several categories
    | DuplicateProducts(name: string)    // update_or_create found several products

  // ---------------------------------------------------------------------------
  // Row normalisation

  /** `row.get(key)` is falsy: the column is absent, `None` or empty. */
  predicate Blank(row: Row, key: string) {
    key !in row || row[key].None? || row[key].value == ""
  }

  /** `row.get(key) or default`: a blank column gives `default`. */
  function OrDefault(row: Row, key: string, default: string): string {
    if Blank(row, key) then default else row[key].value
  }

  /** `row.get('name') or row.get('Name')`: `None` when both are blank. */
  function RowName(row: Row): Option<string> {
    if !Blank(row, "name") then Some(row["name"].value)
    else if !Blank(row, "Name") then Some(row["Name"].value)
    else None
  }

  /** The category name a named row files its product under. */
  function CategoryName(row: Row): string {
    Strip(OrDefault(row, "category", "Uncategorized"))
  }

  /** `int(row.get('stock_estimate') or 0)`. */
  function StockField(row: Row): Result<int, ImportError> {
    var text := OrDefault(row, "stock_estimate", "");
    if text == "" then Ok(0)
    else match ParseInt(text)
      case None => Err(BadStock(text))
      case Some(n) => Ok(n)
  }

  /** `row.get('price') or 0`, as stored in the two-place price column. */
  function PriceField(row: Row): (r: Result<int, ImportError>)
    ensures r.Ok? ==> IsMoney(r.value)
  {
    var text := OrDefault(row, "price", "");
    if text == "" then Ok(0)
    else match ParsePrice(text)
      case None => Err(BadPrice(text))
      case Some(cents) => Ok(cents)
  }

  const ActiveWords: set<string> := {"1", "true", "yes"}

  /**
   * `row.get('is_active', 'True').lower() in ('1', 'true', 'yes')`: the default applies only to an
   * absent column; a `None` value has no `lower`.
   */
  function ActiveField(row: Row): Result<bool, ImportError> {
    if "is_active" !in row then Ok(AsciiLower("True") in ActiveWords)
    else match row["is_active"]
      case None => Err(MissingActive)
      case Some(text) => Ok(AsciiLower(text) in ActiveWords)
  }

  /** A row as the loop body reads it, before anything is written. */
  datatype RowFields = RowFields(
    name: Option<string>,              // the stripped name; `None` for a row without a name
    category: string,                  // the stripped category name
    stock: Result<int, ImportError>,
    price: Result<int, ImportError>,
    description: string,
    unit: string,
    active: Result<bool, ImportError>)

  /** The conversions fail only with their own errors, and a converted price fits the column. */
  predicate Converted(f: RowFields) {
    && (f.stock.Err? ==> f.stock.error.BadStock?)
    && (f.active.Err? ==> f.active.error.MissingActive?)
    && (f.price.Err? ==> f.price.error.BadPrice?)
    && (f.price.Ok? ==> IsMoney(f.price.value))
  }

  /** The fields the loop body takes from one CSV row. */
  function ReadRow(row: Row): (f: RowFields)
    ensures Converted(f)
  {
    RowFields(
      match RowName(row) case None => None case Some(raw) => Some(Strip(raw)),
      CategoryName(row), StockField(row), PriceField(row),
      OrDefault(row, "short_description", ""), OrDefault(row, "unit", ""), ActiveField(row))
  }

  /** Every row of a file, read. */
  function ReadRows(rows: seq<Row>): (r: seq<RowFields>)
    ensures |r| == |rows|
    ensures forall k | 0 <= k < |rows| :: r[k] == ReadRow(rows[k])
  {
    seq(|rows|, k requires 0 <= k < |rows| => ReadRow(rows[k]))
  }

  /** A row is skipped exactly when both name columns are absent, `None` or empty; otherwise `name` wins. */
  lemma NameDefault(row: Row)
    ensures RowName(row).None? <==> Blank(row, "name") && Blank(row, "Name")
    ensures !Blank(row, "name") ==> RowName(row) == row["name"]
  {
  }

  /**
   * The defaults of the other columns: no stock gives 0, no price 0, no unit or description the
   * empty text.
   */
  lemma FieldDefaults(row: Row)
    ensures Blank(row, "stock_estimate") ==> StockField(row) == Ok(0)
    ensures Blank(row, "price") ==> PriceField(row) == Ok(0)
    ensures Blank(row, "unit") ==> OrDefault(row, "unit", "") == ""
    ensures Blank(row, "short_description") ==> OrDefault(row, "short_description", "") == ""
  {
  }

  /** A row without a category is filed under 'Uncategorized'. */
  lemma CategoryDefault(row: Row)
    ensures Blank(row, "category") ==> CategoryName(row) == "Uncategorized"
  {
    if Blank(row, "category") {
      assert OrDefault(row, "category", "Uncategorized") == "Uncategorized";
      StripTrimmed("Uncategorized");
    }
  }

  /**
   * An absent `is_active` column means active, an empty one inactive, and a `None` one (a short
   * row) fails the row.
   */
  lemma ActiveDefault(row: Row)
    ensures "is_active" !in row ==> ActiveField(row) == Ok(true)
    ensures "is_active" in row && row["is_active"] == Some("") ==> ActiveField(row) == Ok(false)
    ensures "is_active" in row && row["is_active"].None? ==> ActiveField(row) == Err(MissingActive)
  {
    assert AsciiLower("True") == "true";
  }

  /** The active flag ignores the case of ASCII letters: `TRUE`, `Yes` and `true` all count. */
  lemma ActiveFieldIgnoresCase(row: Row, text: string)
    ensures ActiveField(row["is_active" := Some(text)]) == ActiveField(row["is_active" := Some(AsciiUpper(text))])
    ensures ActiveField(row["is_active" := Some(text)]) == ActiveField(row["is_active" := Some(AsciiLower(text))])
  {
    LowerForgetsCase(text);
  }

  // ---------------------------------------------------------------------------
  // One row

  /** The categories named `name`. */
  function CategoriesNamed(db: Db, name: string): set<nat> {
    db.categories.Where((c: Category) => c.name == name)
  }

  /** The products named `name`. */
  function ProductsNamed(db: Db, name: string): set<nat> {
    db.products.Where((p: Product) => p.name == name)
  }

  /** `Category.objects.get_or_create(name=name)`: the database and the category's key. */
  function GetOrCreateCategory(db: Db, name: string): Result<(Db, nat), ImportError> {
    var matches := CategoriesNamed(db, name);
    if |matches| == 0 then Ok((db.(categories := db.categories.Insert(Category(name))), db.categories.next))
    else if |matches| == 1 then Ok((db, Only(matches)))
    else Err(DuplicateCategories(name))
  }

  datatype RowOutcome = Skipped | Created(id: nat) | Updated(id: nat)

  /** The fields `update_or_create` writes from a row, under category `cat`. */
  function Upserted(p: Product, f: RowFields, cat: nat, price: int, stock: int, active: bool): Product
  {
    p.(category := Some(cat), description := f.description, price := price,
       unit := f.unit, stock := stock, isActive := active)
  }

  /** `update_or_create(name=name, defaults=...)` once at most one product has the name. */
  function SaveProduct(db: Db, name: string, f: RowFields, cat: nat, price: int, stock: int, active: bool): (Db, RowOutcome)
    requires |ProductsNamed(db, name)| <= 1
  {
    var matches := ProductsNamed(db, name);
    if |matches| == 0 then
      var p := Upserted(NewProduct(name, 0), f, cat, price, stock, active);
      (db.(products := db.products.Insert(p)), Created(db.products.next))
    else
      var id := Only(matches);
      (db.(products := db.products.Put(id, Upserted(db.products.rows[id], f, cat, price, stock, active))), Updated(id))
  }

  /**
   * One pass of the loop body: skip a row without a name; get or create the category; take the
   * stock; take the active flag; look the product up by stripped name; take the price when
   * saving; create the product or overwrite its fields. The database returned on an error keeps what the row had already
   * written.
   */
  function ImportRow(db: Db, f: RowFields): (Db, Result<RowOutcome, ImportError>) {
    match f.name
    case None => (db, Ok(Skipped))
    case Some(name) =>
      match GetOrCreateCategory(db, f.category)
      case Err(e) => (db, Err(e))
      case Ok((db1, cat)) =>
        match f.stock
        case Err(e) => (db1, Err(e))
        case Ok(stock) =>
          match f.active
          case Err(e) => (db1, Err(e))
          case Ok(active) =>
            if |ProductsNamed(db1, name)| > 1 then (db1, Err(DuplicateProducts(name)))
            else match f.price
              case Err(e) => (db1, Err(e))
              case Ok(price) =>
                var (after, outcome) := SaveProduct(db1, name, f, cat, price, stock, active);
                (after, Ok(outcome))
  }

  /**
   * The category step reuses the one category with the name, or adds exactly one category with
   * it under a fresh key; every other table is left alone.
   */
  lemma CategoryStep(db: Db, name: string)
    requires KeysWellFormed(db)
    requires GetOrCreateCategory(db, name).Ok?
    ensures var (db1, cat) := GetOrCreateCategory(db, name).value;
            && db1 == db.(categories := db1.categories)
            && cat in db1.categories.rows && db1.categories.rows[cat].name == name
            && (CategoriesNamed(db, name) == {} ==>
                  cat == db.categories.next && db1.categories == db.categories.Insert(Category(name)))
            && (CategoriesNamed(db, name) != {} ==> CategoriesNamed(db, name) == {cat} && db1 == db)
            && db1.categories.rows.Keys == db.categories.rows.Keys + {cat}
            && (forall c | c in db.categories.rows :: c in db1.categories.rows && db1.categories.rows[c] == db.categories.rows[c])
            && KeysWellFormed(db1)
            && (UniqueNames(db) ==> UniqueNames(db1))
            && (Valid(db) ==> Valid(db1))
  {
    var matches := CategoriesNamed(db, name);
    var (db1, cat) := GetOrCreateCategory(db, name).value;
    if |matches| == 1 {
      assert cat in matches;
    } else if UniqueNames(db) {
      forall i, j | i in db1.categories.rows && j in db1.categories.rows &&
                    db1.categories.rows[i].name == db1.categories.rows[j].name
        ensures i == j
      {
        WhereEmpty(db.categories, (c: Category) => c.name == name);
        assert i != db.categories.next ==> i in db.categories.rows;
        assert j != db.categories.next ==> j in db.categories.rows;
      }
    }
  }

  /**
   * The product step: the product under `name` holds the row's fields afterwards, it is new
   * exactly when no product had the name, no other product changes and none is added.
   */
  lemma SaveProductStep(db: Db, name: string, f: RowFields, cat: nat, price: int, stock: int, active: bool)
    requires KeysWellFormed(db)
    requires |ProductsNamed(db, name)| <= 1
    ensures var (after, outcome) := SaveProduct(db, name, f, cat, price, stock, active);
            var id := outcome.id;
            && !outcome.Skipped?
            && after == db.(products := after.products)
            && (outcome.Created? <==> ProductsNamed(db, name) == {})
            && (outcome.Updated? ==> ProductsNamed(db, name) == {id})
            && (outcome.Created? ==> id !in db.products.rows)
            && id in after.products.rows
            && after.products.rows[id] == Upserted(after.products.rows[id], f, cat, price, stock, active)
            && after.products.rows[id].name == name
            && after.products.rows.Keys == db.products.rows.Keys + {id}
            && (forall p | p in db.products.rows && p != id :: p in after.products.rows && after.products.rows[p] == db.products.rows[p])
            && KeysWellFormed(after)
  {
    var matches := ProductsNamed(db, name);
    if |matches| == 1 {
      var id := Only(matches);
      assert id in matches;
    }
  }

  /** A name is in use exactly when some product carries it. */
  lemma ProductsNamedInUse(db: Db, name: string)
    ensures ProductsNamed(db, name) == {} <==> name !in ProductNames(db)
  {
    if name in ProductNames(db) {
      var p :| p in db.products.rows && db.products.rows[p].name == name;
      assert p in ProductsNamed(db, name);
    }
  }

  /**
   * The product step adds `name` to the product names and takes no name away, and it creates a
   * product exactly when the name was not in use.
   */
  lemma SaveProductNames(db: Db, name: string, f: RowFields, cat: nat, price: int, stock: int, active: bool)
    requires KeysWellFormed(db)
    requires |ProductsNamed(db, name)| <= 1
    ensures var (after, outcome) := SaveProduct(db, name, f, cat, price, stock, active);
            && ProductNames(after) == ProductNames(db) + {name}
            && (outcome.Created? <==> name !in ProductNames(db))
  {
    SaveProductStep(db, name, f, cat, price, stock, active);
    ProductsNamedInUse(db, name);
    var (after, outcome) := SaveProduct(db, name, f, cat, price, stock, active);
    var id := outcome.id;
    forall n | n in ProductNames(after) ensures n in ProductNames(db) + {name} {
      var p :| p in after.products.rows && after.products.rows[p].name == n;
      if p != id {
        assert p in db.products.rows;
      }
    }
    forall n | n in ProductNames(db) ensures n in ProductNames(after) {
      var p :| p in db.products.rows && db.products.rows[p].name == n;
      if p == id {
        assert p in ProductsNamed(db, name);
      } else {
        assert after.products.rows[p] == db.products.rows[p];
      }
    }
  }

  /** Under unique names, the product step keeps them unique and adds `name` to the product names. */
  lemma SaveProductKeepsNamesUnique(db: Db, name: string, f: RowFields, cat: nat, price: int, stock: int, active: bool)
    requires KeysWellFormed(db) && UniqueNames(db)
    requires |ProductsNamed(db, name)| <= 1
    ensures var (after, outcome) := SaveProduct(db, name, f, cat, price, stock, active);
            && UniqueNames(after)
            && ProductNames(after) == ProductNames(db) + {name}
            && (outcome.Created? <==> name !in ProductNames(db))
  {
    SaveProductStep(db, name, f, cat, price, stock, active);
    SaveProductNames(db, name, f, cat, price, stock, active);
    var (after, outcome) := SaveProduct(db, name, f, cat, price, stock, active);
    var id := outcome.id;
    forall i, j | i in after.products.rows && j in after.products.rows &&
                  after.products.rows[i].name == after.products.rows[j].name
      ensures i == j
    {
      assert i != id ==> i in db.products.rows;
      assert j != id ==> j in db.products.rows;
    }
  }

  /** The product step keeps the invariant when the category exists and the price fits its column. */
  lemma SaveProductPreservesValid(db: Db, name: string, f: RowFields, cat: nat, price: int, stock: int, active: bool)
    requires Valid(db) && cat in db.categories.rows && IsMoney(price)
    requires |ProductsNamed(db, name)| <= 1
    ensures Valid(SaveProduct(db, name, f, cat, price, stock, active).0)
  {
    SaveProductStep(db, name, f, cat, price, stock, active);
  }

  /** A row without a name changes nothing and is counted nowhere. */
  lemma SkippedRowChangesNothing(db: Db, f: RowFields)
    requires f.name.None?
    ensures ImportRow(db, f) == (db, Ok(Skipped))
  {
  }

  /**
   * A row that goes through leaves exactly one product under its stripped name, holding the row's
   * fields and filed under the category with the row's stripped category name; it is created
   * exactly when no product had that name. No other product changes or is added, at most that
   * category is added, and the other tables are left alone.
   */
  lemma ImportRowUpserts(db: Db, f: RowFields)
    requires KeysWellFormed(db)
    requires ImportRow(db, f).1.Ok? && f.name.Some?
    ensures f.stock.Ok? && f.active.Ok? && f.price.Ok?
    ensures var (after, outcome) := ImportRow(db, f);
            var id := outcome.value.id;
            && !outcome.value.Skipped?
            && after == db.(categories := after.categories, products := after.products)
            && ProductsNamed(after, f.name.value) == {id}
            && after.products.rows.Keys == db.products.rows.Keys + {id}
            && (outcome.value.Created? <==> ProductsNamed(db, f.name.value) == {})
            && (outcome.value.Updated? ==> ProductsNamed(db, f.name.value) == {id})
            && (outcome.value.Created? ==> id !in db.products.rows)
            && id in after.products.rows
            && after.products.rows[id].name == f.name.value
            && after.products.rows[id].description == f.description
            && after.products.rows[id].unit == f.unit
            && after.products.rows[id].price == f.price.value
            && after.products.rows[id].stock == f.stock.value
            && after.products.rows[id].isActive == f.active.value
            && after.products.rows[id].category.Some?
            && after.products.rows[id].category.value in after.categories.rows
            && after.categories.rows[after.products.rows[id].category.value].name == f.category
            && after.categories.rows.Keys == db.categories.rows.Keys + {after.products.rows[id].category.value}
            && (forall p | p in db.products.rows && p != id :: p in after.products.rows && after.products.rows[p] == db.products.rows[p])
            && (forall c | c in db.categories.rows :: c in after.categories.rows && after.categories.rows[c] == db.categories.rows[c])
  {
    var name := f.name.value;
    CategoryStep(db, f.category);
    var (db1, cat) := GetOrCreateCategory(db, f.category).value;
    assert ProductsNamed(db1, name) == ProductsNamed(db, name);
    SaveProductStep(db1, name, f, cat, f.price.value, f.stock.value, f.active.value);
    var (after, outcome) := SaveProduct(db1, name, f, cat, f.price.value, f.stock.value, f.active.value);
    OnlyProductNamed(db1, after, name, outcome.id);
  }

  /**
   * When only product `id` changed or was added, it carries `name`, and no other product had the
   * name before, `id` is the only product with the name.
   */
  lemma OnlyProductNamed(before: Db, after: Db, name: string, id: nat)
    requires ProductsNamed(before, name) <= {id}
    requires id in after.products.rows && after.products.rows[id].name == name
    requires after.products.rows.Keys == before.products.rows.Keys + {id}
    requires forall p | p in before.products.rows && p != id :: after.products.rows[p] == before.products.rows[p]
    ensures ProductsNamed(after, name) == {id}
  {
    forall p | p in ProductsNamed(after, name) ensures p == id || p in ProductsNamed(before, name) {
    }
  }

  /**
   * A named row fails exactly when the category name is held by several categories, the stock
   * does not convert, the active flag is `None`, the product name is held by several products, or
   * the price does not convert. A failing row changes nothing but the category table, and there
   * only adds the category it created when no category had the name.
   */
  lemma ImportRowFails(db: Db, f: RowFields)
    requires KeysWellFormed(db) && f.name.Some?
    ensures var (after, outcome) := ImportRow(db, f);
            && (outcome.Err? <==>
                  |CategoriesNamed(db, f.category)| > 1 || f.stock.Err? || f.active.Err? ||
                  |ProductsNamed(db, f.name.value)| > 1 || f.price.Err?)
            && (outcome.Err? ==>
                  && after == db.(categories := after.categories)
                  && (after.categories == db.categories ||
                        (CategoriesNamed(db, f.category) == {} && after.categories == db.categories.Insert(Category(f.category)))))
  {
    if GetOrCreateCategory(db, f.category).Ok? {
      CategoryStep(db, f.category);
      var (db1, cat) := GetOrCreateCategory(db, f.category).value;
      assert ProductsNamed(db1, f.name.value) == ProductsNamed(db, f.name.value);
    }
  }

  // ---------------------------------------------------------------------------
  // The loop

  /** Where the loop stands: the database, the counters, and the error that stopped it, if any. */
  datatype Tally = Tally(db: Db, created: nat, updated: nat, failure: Option<ImportError>)

  /** The tally after one more row has been through the loop body. */
  function Advance(t: Tally, after: Db, outcome: Result<RowOutcome, ImportError>): Tally {
    match outcome
    case Err(e) => t.(db := after, failure := Some(e))
    case Ok(Skipped) => t.(db := after)
    case Ok(Created(_)) => t.(db := after, created := t.created + 1)
    case Ok(Updated(_)) => t.(db := after, updated := t.updated + 1)
  }

  /** The loop over the rows from the first to the last, stopping at the first error. */
  function ImportRows(db: Db, rows: seq<RowFields>): Tally
    decreases |rows|
  {
    if rows == [] then Tally(db, 0, 0, None)
    else
      var t := ImportRows(db, rows[..|rows| - 1]);
      if t.failure.Some? then t
      else
        var (after, outcome) := ImportRow(t.db, rows[|rows| - 1]);
        Advance(t, after, outcome)
  }

  /** `manage.py import_products <csvfile>`: a missing file is refused before anything changes. */
  function Import(db: Db, fileExists: bool, rows: seq<Row>): Tally {
    if fileExists then ImportRows(db, ReadRows(rows)) else Tally(db, 0, 0, Some(FileNotFound))
  }

  /** A missing file changes nothing. */
  lemma MissingFileChangesNothing(db: Db, rows: seq<Row>)
    ensures Import(db, false, rows) == Tally(db, 0, 0, Some(FileNotFound))
  {
  }

  /** The number of rows with a name. */
  function NamedCount(rows: seq<RowFields>): nat
    decreases |rows|
  {
    if rows == [] then 0
    else NamedCount(rows[..|rows| - 1]) + (if rows[|rows| - 1].name.Some? then 1 else 0)
  }

  /** Once a row fails, the rows after it are not looked at. */
  lemma {:induction false} FailureSticks(db: Db, rows: seq<RowFields>, n: nat)
    requires n <= |rows|
    requires ImportRows(db, rows[..n]).failure.Some?
    ensures ImportRows(db, rows) == ImportRows(db, rows[..n])
    decreases |rows|
  {
    if n < |rows| {
      assert rows[..|rows| - 1][..n] == rows[..n];
      FailureSticks(db, rows[..|rows| - 1], n);
    } else {
      assert rows[..n] == rows;
    }
  }

  /** A finished import counted every named row exactly once, as created or as updated. */
  lemma {:induction false} CountersCoverNamedRows(db: Db, rows: seq<RowFields>)
    requires ImportRows(db, rows).failure.None?
    ensures ImportRows(db, rows).created + ImportRows(db, rows).updated == NamedCount(rows)
    decreases |rows|
  {
    if rows != [] {
      var init := rows[..|rows| - 1];
      CountersCoverNamedRows(db, init);
      if rows[|rows| - 1].name.Some? {
        var t := ImportRows(db, init);
        var outcome := ImportRow(t.db, rows[|rows| - 1]).1;
        if outcome.Ok? {
          ImportRowNamedOutcome(t.db, rows[|rows| - 1]);
        }
      }
    }
  }

  /** A named row that goes through is created or updated, never skipped. */
  lemma ImportRowNamedOutcome(db: Db, f: RowFields)
    requires f.name.Some?
    requires ImportRow(db, f).1.Ok?
    ensures !ImportRow(db, f).1.value.Skipped?
  {
  }

  // ---------------------------------------------------------------------------
  // Names stay unique, and what `created` counts

  /** The names of the products. */
  function ProductNames(db: Db): set<string> {
    set id | id in db.products.rows :: db.products.rows[id].name
  }

  /** No two categories share a name, and no two products do. */
  predicate UniqueNames(db: Db) {
    && (forall i, j | i in db.categories.rows && j in db.categories.rows ::
          db.categories.rows[i].name == db.categories.rows[j].name ==> i == j)
    && (forall i, j | i in db.products.rows && j in db.products.rows ::
          db.products.rows[i].name == db.products.rows[j].name ==> i == j)
  }

  /** The stripped names of the named rows. */
  function RowNames(rows: seq<RowFields>): set<string>
    decreases |rows|
  {
    if rows == [] then {} else RowNames(rows[..|rows| - 1]) + RowNameSet(rows[|rows| - 1])
  }

  /** The stripped name of a named row, or nothing for a row without a name. */
  function RowNameSet(f: RowFields): set<string> {
    match f.name
    case None => {}
    case Some(n) => {n}
  }

  /** With unique names, a name matches at most one row, and exactly one when it is in use. */
  lemma UniqueNameMatches(db: Db, name: string)
    requires UniqueNames(db)
    ensures |CategoriesNamed(db, name)| <= 1
    ensures |ProductsNamed(db, name)| <= 1
    ensures |ProductsNamed(db, name)| == 1 <==> name in ProductNames(db)
  {
    var cs := CategoriesNamed(db, name);
    if cs != {} {
      var c :| c in cs;
      assert cs == {c};
    }
    var ps := ProductsNamed(db, name);
    if ps != {} {
      var p :| p in ps;
      assert ps == {p};
    }
    if name in ProductNames(db) {
      var p :| p in db.products.rows && db.products.rows[p].name == name;
      assert p in ps;
    }
  }

  /**
   * With unique names, a named row never finds duplicates, so it fails only on a conversion; it
   * keeps the names unique and adds its stripped name to the product names, and it is created
   * exactly when that name was new.
   */
  lemma ImportRowKeepsNamesUnique(db: Db, f: RowFields)
    requires KeysWellFormed(db) && UniqueNames(db)
    requires f.name.Some?
    ensures var (after, outcome) := ImportRow(db, f);
            var name := f.name.value;
            && (outcome.Err? ==> (f.stock.Err? && outcome.error == f.stock.error) ||
                                 (f.active.Err? && outcome.error == f.active.error) ||
                                 (f.price.Err? && outcome.error == f.price.error))
            && UniqueNames(after) && KeysWellFormed(after)
            && (outcome.Ok? ==>
                  && ProductNames(after) == ProductNames(db) + {name}
                  && (outcome.value.Created? <==> name !in ProductNames(db)))
            && (outcome.Err? ==> ProductNames(after) == ProductNames(db))
  {
    var name := f.name.value;
    UniqueNameMatches(db, f.category);
    CategoryStep(db, f.category);
    var (db1, cat) := GetOrCreateCategory(db, f.category).value;
    assert ProductsNamed(db1, name) == ProductsNamed(db, name);
    assert ProductNames(db1) == ProductNames(db);
    UniqueNameMatches(db1, name);
    if f.stock.Ok? && f.active.Ok? && f.price.Ok? {
      SaveProductStep(db1, name, f, cat, f.price.value, f.stock.value, f.active.value);
      SaveProductKeepsNamesUnique(db1, name, f, cat, f.price.value, f.stock.value, f.active.value);
    }
  }

  /**
   * A finished import's product names are the old ones plus the rows' stripped names, and
   * `created` counts exactly the rows' names that were not in the catalog before; names that
   * were unique stay unique. Names need not be unique beforehand: the models put no unique
   * constraint on them.
   */
  lemma {:induction false} CreatedCountsNewNames(db: Db, rows: seq<RowFields>)
    requires KeysWellFormed(db)
    requires ImportRows(db, rows).failure.None?
    ensures var t := ImportRows(db, rows);
            && KeysWellFormed(t.db)
            && (UniqueNames(db) ==> UniqueNames(t.db))
            && ProductNames(t.db) == ProductNames(db) + RowNames(rows)
            && t.created == |RowNames(rows) - ProductNames(db)|
    decreases |rows|
  {
    if UniqueNames(db) {
      ImportRowsKeepsNamesUnique(db, rows);
    }
    if rows != [] {
      var init, row := rows[..|rows| - 1], rows[|rows| - 1];
      ImportRowsLast(db, rows);
      CreatedCountsNewNames(db, init);
      var t := ImportRows(db, init);
      var (after, outcome) := ImportRow(t.db, row);
      if row.name.Some? {
        ImportRowNames(t.db, row);
      } else {
        SkippedRowChangesNothing(t.db, row);
      }
      CreatedStep(db, t, RowNames(init), row, after, outcome);
    }
  }

  /**
   * A named row that goes through adds its stripped name to the product names, takes none away,
   * and is created exactly when the name was not in use, whether or not names were unique.
   */
  lemma ImportRowNames(db: Db, f: RowFields)
    requires KeysWellFormed(db) && f.name.Some?
    requires ImportRow(db, f).1.Ok?
    ensures var (after, outcome) := ImportRow(db, f);
            && KeysWellFormed(after)
            && ProductNames(after) == ProductNames(db) + {f.name.value}
            && (outcome.value.Created? <==> f.name.value !in ProductNames(db))
  {
    var name := f.name.value;
    CategoryStep(db, f.category);
    var (db1, cat) := GetOrCreateCategory(db, f.category).value;
    assert ProductsNamed(db1, name) == ProductsNamed(db, name);
    assert ProductNames(db1) == ProductNames(db);
    SaveProductStep(db1, name, f, cat, f.price.value, f.stock.value, f.active.value);
    SaveProductNames(db1, name, f, cat, f.price.value, f.stock.value, f.active.value);
  }

  /**
   * Starting from a catalog with unique names, the import keeps them unique whether it finishes
   * or stops at a row that fails.
   */
  lemma {:induction false} ImportRowsKeepsNamesUnique(db: Db, rows: seq<RowFields>)
    requires KeysWellFormed(db) && UniqueNames(db)
    ensures KeysWellFormed(ImportRows(db, rows).db) && UniqueNames(ImportRows(db, rows).db)
    decreases |rows|
  {
    if rows != [] {
      var init, row := rows[..|rows| - 1], rows[|rows| - 1];
      ImportRowsKeepsNamesUnique(db, init);
      var t := ImportRows(db, init);
      if t.failure.None? {
        if row.name.Some? {
          ImportRowKeepsNamesUnique(t.db, row);
        } else {
          SkippedRowChangesNothing(t.db, row);
        }
      }
    }
  }

  /**
   * One more row that goes through adds its name to the product names and counts it as created
   * exactly when it is new.
   */
  lemma CreatedStep(db: Db, t: Tally, names: set<string>, f: RowFields, after: Db, outcome: Result<RowOutcome, ImportError>)
    requires t.failure.None? && outcome.Ok?
    requires ProductNames(t.db) == ProductNames(db) + names
    requires t.created == |names - ProductNames(db)|
    requires f.name.None? ==> after == t.db && outcome == Ok(Skipped)
    requires f.name.Some? ==>
               && ProductNames(after) == ProductNames(t.db) + {f.name.value}
               && (outcome.value.Created? <==> f.name.value !in ProductNames(t.db))
    ensures var next := Advance(t, after, outcome);
            && next.db == after
            && ProductNames(next.db) == ProductNames(db) + (names + RowNameSet(f))
            && next.created == |(names + RowNameSet(f)) - ProductNames(db)|
  {
    if f.name.Some? {
      var name := f.name.value;
      CountNamed(t, after, outcome, ProductNames(db), names, name);
      assert RowNameSet(f) == {name};
    } else {
      assert names + RowNameSet(f) == names;
    }
  }

  /** The counter arithmetic of one named row: `created` grows exactly when its name is new. */
  lemma CountNamed(t: Tally, after: Db, outcome: Result<RowOutcome, ImportError>,
                   existing: set<string>, names: set<string>, name: string)
    requires outcome.Ok?
    requires t.created == |names - existing|
    requires outcome.value.Created? <==> name !in existing + names
    ensures Advance(t, after, outcome).db == after
    ensures Advance(t, after, outcome).created == |(names + {name}) - existing|
  {
    NewNamesStep(existing, names, name);
  }

  /** A finished import finished every prefix, and its last row went through. */
  lemma ImportRowsLast(db: Db, rows: seq<RowFields>)
    requires rows != [] && ImportRows(db, rows).failure.None?
    ensures var t := ImportRows(db, rows[..|rows| - 1]);
            var (after, outcome) := ImportRow(t.db, rows[|rows| - 1]);
            && t.failure.None? && outcome.Ok?
            && ImportRows(db, rows) == Advance(t, after, outcome)
  {
  }

  /** Adding one name to the imported names adds one new name exactly when it was not in use yet. */
  lemma NewNamesStep(existing: set<string>, names: set<string>, name: string)
    ensures name in existing + names ==> (names + {name}) - existing == names - existing
    ensures name !in existing + names ==> |(names + {name}) - existing| == |names - existing| + 1
  {
    if name !in existing + names {
      assert (names + {name}) - existing == (names - existing) + {name};
    }
  }

  // ---------------------------------------------------------------------------
  // The database invariant

  /** The command keeps the database invariant, whether it finishes or stops at an error. */
  lemma ImportPreservesValid(db: Db, fileExists: bool, rows: seq<Row>)
    requires Valid(db)
    ensures Valid(Import(db, fileExists, rows).db)
  {
    if fileExists {
      var read := ReadRows(rows);
      forall k | 0 <= k < |read| ensures Converted(read[k]) {
        assert read[k] == ReadRow(rows[k]);
      }
      ImportRowsPreservesValid(db, read);
    }
  }

  /** The loop keeps the database invariant over rows whose prices fit the column. */
  lemma {:induction false} ImportRowsPreservesValid(db: Db, rows: seq<RowFields>)
    requires Valid(db)
    requires forall k | 0 <= k < |rows| :: Converted(rows[k])
    ensures Valid(ImportRows(db, rows).db)
    decreases |rows|
  {
    if rows != [] {
      var init := rows[..|rows| - 1];
      ImportRowsPreservesValid(db, init);
      var t := ImportRows(db, init);
      if t.failure.None? {
        ImportRowPreservesValid(t.db, rows[|rows| - 1]);
      }
    }
  }

  /** One row keeps the database invariant: new products point at an existing category and fit the price column. */
  lemma ImportRowPreservesValid(db: Db, f: RowFields)
    requires Valid(db) && Converted(f)
    ensures Valid(ImportRow(db, f).0)
  {
    if f.name.Some? && GetOrCreateCategory(db, f.category).Ok? {
      CategoryStep(db, f.category);
      var (db1, cat) := GetOrCreateCategory(db, f.category).value;
      var name := f.name.value;
      if f.stock.Ok? && f.active.Ok? && f.price.Ok? && |ProductsNamed(db1, name)| <= 1 {
        SaveProductPreservesValid(db1, name, f, cat, f.price.value, f.stock.value, f.active.value);
        assert ImportRow(db, f).0 == SaveProduct(db1, name, f, cat, f.price.value, f.stock.value, f.active.value).0;
      } else {
        assert ImportRow(db, f).0 == db1;
      }
    }
  }

  // ---------------------------------------------------------------------------
  // The command on the live database

  /** The loop body on the live database, for a row already read. */
  method ImportRowInPlace(store: Store, f: RowFields) returns (outcome: Result<RowOutcome, ImportError>)
    modifies store
    ensures (store.State(), outcome) == ImportRow(old(store.State()), f)
  {
    if f.name.None? {
      return Ok(Skipped);
    }
    var name := f.name.value;
    var categories := CategoriesNamed(store.State(), f.category);
    var cat: nat;
    if |categories| == 0 {
      cat := store.categories.next;
      store.categories := store.categories.Insert(Category(f.category));
    } else if |categories| == 1 {
      cat := Only(categories);
    } else {
      return Err(DuplicateCategories(f.category));
    }
    if f.stock.Err? {
      return Err(f.stock.error);
    }
    if f.active.Err? {
      return Err(f.active.error);
    }
    var matches := ProductsNamed(store.State(), name);
    if |matches| > 1 {
      return Err(DuplicateProducts(name));
    }
    if f.price.Err? {
      return Err(f.price.error);
    }
    if |matches| == 0 {
      outcome := Ok(Created(store.products.next));
      store.products := store.products.Insert(Upserted(NewProduct(name, 0), f, cat, f.price.value, f.stock.value, f.active.value));
    } else {
      var id := Only(matches);
      outcome := Ok(Updated(id));
      store.products := store.products.Put(id, Upserted(store.products.rows[id], f, cat, f.price.value, f.stock.value, f.active.value));
    }
  }

  /** One more row through the loop, while no row has failed yet. */
  lemma ImportRowsNext(db: Db, rows: seq<RowFields>, i: nat)
    requires i < |rows| && ImportRows(db, rows[..i]).failure.None?
    ensures var t := ImportRows(db, rows[..i]);
            var (after, outcome) := ImportRow(t.db, rows[i]);
            ImportRows(db, rows[..i + 1]) == Advance(t, after, outcome)
  {
    assert rows[..i + 1][..i] == rows[..i];
  }

  /**
   * `Command.handle`: refuse a missing file, then read and import the rows in order, counting
   * created and updated products, until the rows run out or one fails.
   */
  method Handle(store: Store, fileExists: bool, rows: seq<Row>)
    returns (created: nat, updated: nat, failure: Option<ImportError>)
    modifies store
    ensures Import(old(store.State()), fileExists, rows) == Tally(store.State(), created, updated, failure)
  {
    if !fileExists {
      return 0, 0, Some(FileNotFound);
    }
    ghost var read := ReadRows(rows);
    created, updated, failure := 0, 0, None;
    var i := 0;
    while i < |rows| && failure.None?
      invariant 0 <= i <= |rows|
      invariant ImportRows(old(store.State()), read[..i]) == Tally(store.State(), created, updated, failure)
    {
      var fields := ReadRow(rows[i]);
      assert fields == read[i];
      ghost var t := ImportRows(old(store.State()), read[..i]);
      var outcome := ImportRowInPlace(store, fields);
      ImportRowsNext(old(store.State()), read, i);
      ghost var next := Advance(t, store.State(), outcome);
      match outcome {
        case Err(e) => failure := Some(e);
        case Ok(Skipped) =>
        case Ok(Created(_)) => created := created + 1;
        case Ok(Updated(_)) => updated := updated + 1;
      }
      assert next.created == created && next.updated == updated && next.failure == failure;
      assert next == Tally(store.State(), created, updated, failure);
      i := i + 1;
    }
    if i < |rows| {
      FailureSticks(old(store.State()), read, i);
    } else {
      assert read[..i] == read;
    }
  }

}

=== FILE: models.dfy ===
/**
 * The shop's entities (shop/models.py): categories, products, customers, addresses,
 * orders, order items and payments, the six order statuses, field defaults, and what
 * deleting a row does to the rows that refer to it.
 *
 * Every table is a map from primary key to row plus the next key the database hands out.
 * Money amounts (DecimalField with max_digits=10, decimal_places=2) are whole numbers of cents.
 */
module Models {
  import opened Wrappers

  // ---------------------------------------------------------------------------
  // Money

  /** The largest amount of a 10-digit decimal with 2 fractional digits, in cents (99,999,999.99). */
  const MaxCents: int := 9_999_999_999

  /** `cents` is storable in a `DecimalField(max_digits=10, decimal_places=2)`. */
  predicate IsMoney(cents: int) {
    -MaxCents <= cents <= MaxCents
  }

  // ---------------------------------------------------------------------------
  // Order status

  /** The six values of `Order.STATUS_CHOICES`. */
  datatype Status = New | Preparing | Ready | OutForDelivery | Completed | Cancelled

  /** The status in the order the choices list gives them. */
  const StatusChoices: seq<Status> := [New, Preparing, Ready, OutForDelivery, Completed, Cancelled]

  /** The stored value of a status (the first element of each choice pair). */
  function Code(s: Status): string {
    match s
    case New => "NEW"
    case Preparing => "PREPARING"
    case Ready => "READY"
    case OutForDelivery => "OUT_FOR_DELIVERY"
    case Completed => "COMPLETED"
    case Cancelled => "CANCELLED"
  }

  /** The status whose stored value is `code`, if any: the inverse of `Code`. */
  function StatusFromCode(code: string): (r: Option<Status>)
    ensures r.Some? ==> Code(r.value) == code
    ensures r.None? ==> forall s: Status :: Code(s) != code
  {
    if code == "NEW" then Some(New)
    else if code == "PREPARING" then Some(Preparing)
    else if code == "READY" then Some(Ready)
    else if code == "OUT_FOR_DELIVERY" then Some(OutForDelivery)
    else if code == "COMPLETED" then Some(Completed)
    else if code == "CANCELLED" then Some(Cancelled)
    else None
  }

  /** Reading back a stored status gives that status: stored values are distinct. */
  lemma StatusCodeRoundTrip(s: Status)
    ensures StatusFromCode(Code(s)) == Some(s)
  {
  }

  /** The choices list holds every status exactly once, so there are exactly six. */
  lemma StatusChoicesExact()
    ensures |StatusChoices| == 6
    ensures forall s: Status :: s in StatusChoices
    ensures forall i, j :: 0 <= i < j < |StatusChoices| ==> StatusChoices[i] != StatusChoices[j]
  {
    forall s: Status ensures s in StatusChoices {
      var k := match s
        case New => 0 case Preparing => 1 case Ready => 2
        case OutForDelivery => 3 case Completed => 4 case Cancelled => 5;
      assert StatusChoices[k] == s;
    }
  }

  // ---------------------------------------------------------------------------
  // Rows

  datatype Category = Category(name: string)

  /** A product; `stock` is a plain IntegerField, so nothing in the schema keeps it non-negative. */
  datatype Product = Product(
    category: Option<nat>,
    name: string,
    description: string,
    price: int,
    unit: string,
    stock: int,
    isActive: bool)

  datatype Customer = Customer(name: Option<string>, phone: string, email: Option<string>)

  datatype Address = Address(
    customer: nat,
    line1: string,
    city: string,
    pincode: string,
    instructions: Option<string>)

  /** An order header; `placedAt` and `scheduledFor` are opaque timestamps. */
  datatype Order = Order(
    customer: Option<nat>,
    address: Option<nat>,
    totalAmount: int,
    paymentMethod: string,
    status: Status,
    placedAt: int,
    scheduledFor: Option<int>,
    notes: Option<string>)

  /** An order line; `unitPrice` is the product's price when the order was placed. */
  datatype OrderItem = OrderItem(order: nat, product: Option<nat>, quantity: int, unitPrice: int)

  /** A passive payment ledger entry. */
  datatype Payment = Payment(
    order: nat,
    provider: string,
    providerPaymentId: string,
    amount: int,
    status: string,
    createdAt: int)

  // ---------------------------------------------------------------------------
  // Defaults

  const DefaultPaymentMethod: string := "COD"

  /** A product created with only a name and a price takes the field defaults. */
  function NewProduct(name: string, price: int): (p: Product)
    ensures p.stock == 0 && p.isActive
    ensures p.category.None? && p.description == "" && p.unit == ""
    ensures p.name == name && p.price == price
  {
    Product(None, name, "", price, "", 0, true)
  }

  /** An order header as `Order.objects.create` builds it: total 0, status NEW, payment method 'COD' unless given. */
  function NewOrder(
    customer: nat, address: Option<nat>, paymentMethod: Option<string>,
    scheduledFor: Option<int>, notes: Option<string>, placedAt: int): (o: Order)
    ensures o.totalAmount == 0 && o.status == New
    ensures paymentMethod.None? ==> o.paymentMethod == "COD"
    ensures paymentMethod.Some? ==> o.paymentMethod == paymentMethod.value
    ensures o.customer == Some(customer) && o.address == address && o.placedAt == placedAt
    ensures o.scheduledFor == scheduledFor && o.notes == notes
  {
    Order(Some(customer), address, 0, paymentMethod.GetOr(DefaultPaymentMethod), New, placedAt, scheduledFor, notes)
  }

  // ---------------------------------------------------------------------------
  // Tables and the database

  /** A table: rows by primary key, and the key the next insert receives. */
  datatype Table<T> = Table(rows: map<nat, T>, next: nat) {

    /** Every key in use was handed out before `next`. */
    predicate WellFormed() {
      forall id | id in rows :: id < next
    }

    /** Inserts `row` under the key `next`. */
    function Insert(row: T): Table<T> {
      Table(rows[next := row], next + 1)
    }

    /** Replaces the row stored under `id`. */
    function Put(id: nat, row: T): Table<T> {
      Table(rows[id := row], next)
    }

    /** The keys of the rows satisfying `p` (a `filter(...)` queryset). */
    function Where(p: T -> bool): set<nat> {
      set id | id in rows && p(rows[id])
    }
  }

  /** The one element of a singleton set. */
  function Only(s: set<nat>): (x: nat)
    requires |s| == 1
    ensures s == {x}
  {
    var x :| x in s;
    assert s - {x} == {} by {
      assert |s - {x}| == |s| - 1 == 0;
    }
    assert s == {x};
    x
  }

  /** A filter that selects nothing rejects every row. */
  lemma WhereEmpty<T>(t: Table<T>, p: T -> bool)
    requires t.Where(p) == {}
    ensures forall k | k in t.rows :: !p(t.rows[k])
  {
    forall k | k in t.rows
      ensures !p(t.rows[k])
    {
      assert p(t.rows[k]) ==> k in t.Where(p);
    }
  }

  datatype Db = Db(
    categories: Table<Category>,
    products: Table<Product>,
    customers: Table<Customer>,
    addresses: Table<Address>,
    orders: Table<Order>,
    items: Table<OrderItem>,
    payments: Table<Payment>)

  const EmptyDb: Db := Db(Table(map[], 0), Table(map[], 0), Table(map[], 0), Table(map[], 0),
                          Table(map[], 0), Table(map[], 0), Table(map[], 0))

  /** An optional foreign key is null or names a row of `t`. */
  predicate RefOk<T>(r: Option<nat>, t: Table<T>) {
    r.None? || r.value in t.rows
  }

  predicate KeysWellFormed(db: Db) {
    && db.categories.WellFormed() && db.products.WellFormed() && db.customers.WellFormed()
    && db.addresses.WellFormed() && db.orders.WellFormed() && db.items.WellFormed()
    && db.payments.WellFormed()
  }

  /** Every foreign key names an existing row (or is null where the field allows it). */
  predicate ReferencesResolve(db: Db) {
    && (forall id | id in db.products.rows :: RefOk(db.products.rows[id].category, db.categories))
    && (forall id | id in db.addresses.rows :: db.addresses.rows[id].customer in db.customers.rows)
    && (forall id | id in db.orders.rows ::
          RefOk(db.orders.rows[id].customer, db.customers) && RefOk(db.orders.rows[id].address, db.addresses))
    && (forall id | id in db.items.rows ::
          db.items.rows[id].order in db.orders.rows && RefOk(db.items.rows[id].product, db.products))
    && (forall id | id in db.payments.rows :: db.payments.rows[id].order in db.orders.rows)
  }

  /** Prices, snapshot prices and payment amounts fit their decimal columns; quantities are non-negative. */
  predicate ColumnsFit(db: Db) {
    && (forall id | id in db.products.rows :: IsMoney(db.products.rows[id].price))
    && (forall id | id in db.items.rows :: IsMoney(db.items.rows[id].unitPrice) && db.items.rows[id].quantity >= 0)
    && (forall id | id in db.payments.rows :: IsMoney(db.payments.rows[id].amount))
  }

  /** The database invariant. */
  predicate Valid(db: Db) {
    KeysWellFormed(db) && ReferencesResolve(db) && ColumnsFit(db)
  }

  lemma EmptyDbValid()
    ensures Valid(EmptyDb)
  {
  }

  // ---------------------------------------------------------------------------
  // What a delete does to the rows that point at the deleted row (on_delete)

  function ClearCategory(p: Product, id: nat): Product {
    if p.category == Some(id) then p.(category := None) else p
  }

  function ClearProduct(i: OrderItem, id: nat): OrderItem {
    if i.product == Some(id) then i.(product := None) else i
  }

  function ClearAddresses(o: Order, gone: set<nat>): Order {
    if o.address.Some? && o.address.value in gone then o.(address := None) else o
  }

  function ClearCustomer(o: Order, id: nat): Order {
    if o.customer == Some(id) then o.(customer := None) else o
  }

  /** Deleting a category detaches its products (SET_NULL); no product is deleted. */
  function DeleteCategory(db: Db, id: nat): (r: Db)
    ensures id !in r.categories.rows && r.categories.rows.Keys == db.categories.rows.Keys - {id}
    ensures forall c | c in r.categories.rows :: r.categories.rows[c] == db.categories.rows[c]
    ensures r.categories.next == db.categories.next && r.products.next == db.products.next
    ensures r.products.rows.Keys == db.products.rows.Keys
    ensures forall p | p in r.products.rows ::
              r.products.rows[p].category != Some(id) &&
              r.products.rows[p] == ClearCategory(db.products.rows[p], id)
    ensures r.customers == db.customers && r.addresses == db.addresses && r.orders == db.orders
    ensures r.items == db.items && r.payments == db.payments
  {
    var products := map p | p in db.products.rows :: ClearCategory(db.products.rows[p], id);
    db.(categories := db.categories.(rows := db.categories.rows - {id}),
        products := db.products.(rows := products))
  }

  /** Deleting a product detaches the order items that used it (SET_NULL); no item is deleted. */
  function DeleteProduct(db: Db, id: nat): (r: Db)
    ensures id !in r.products.rows && r.products.rows.Keys == db.products.rows.Keys - {id}
    ensures forall p | p in r.products.rows :: r.products.rows[p] == db.products.rows[p]
    ensures r.products.next == db.products.next && r.items.next == db.items.next
    ensures r.items.rows.Keys == db.items.rows.Keys
    ensures forall i | i in r.items.rows ::
              r.items.rows[i].product != Some(id) && r.items.rows[i] == ClearProduct(db.items.rows[i], id)
    ensures r.categories == db.categories && r.customers == db.customers && r.addresses == db.addresses
    ensures r.orders == db.orders && r.payments == db.payments
  {
    var items := map i | i in db.items.rows :: ClearProduct(db.items.rows[i], id);
    db.(products := db.products.(rows := db.products.rows - {id}),
        items := db.items.(rows := items))
  }

  /** Deleting an address detaches the orders delivered to it (SET_NULL). */
  function DeleteAddress(db: Db, id: nat): (r: Db)
    ensures r.addresses.rows.Keys == db.addresses.rows.Keys - {id}
    ensures forall a | a in r.addresses.rows :: r.addresses.rows[a] == db.addresses.rows[a]
    ensures r.addresses.next == db.addresses.next && r.orders.next == db.orders.next
    ensures r.orders.rows.Keys == db.orders.rows.Keys
    ensures forall o | o in r.orders.rows ::
              r.orders.rows[o].address != Some(id) && r.orders.rows[o] == ClearAddresses(db.orders.rows[o], {id})
    ensures r.categories == db.categories && r.products == db.products && r.customers == db.customers
    ensures r.items == db.items && r.payments == db.payments
  {
    var orders := map o | o in db.orders.rows :: ClearAddresses(db.orders.rows[o], {id});
    db.(addresses := db.addresses.(rows := db.addresses.rows - {id}),
        orders := db.orders.(rows := orders))
  }

  /** The keys of the addresses owned by customer `id`. */
  function AddressesOf(db: Db, id: nat): set<nat> {
    db.addresses.Where((a: Address) => a.customer == id)
  }

  /**
   * Deleting a customer deletes the customer's addresses (CASCADE); the customer's orders
   * lose their customer (SET_NULL) and, through the deleted addresses, their address (SET_NULL).
   */
  function DeleteCustomer(db: Db, id: nat): (r: Db)
    ensures r.customers.rows.Keys == db.customers.rows.Keys - {id}
    ensures forall c | c in r.customers.rows :: r.customers.rows[c] == db.customers.rows[c]
    ensures forall a :: a in r.addresses.rows <==> a in db.addresses.rows && db.addresses.rows[a].customer != id
    ensures forall a | a in r.addresses.rows :: r.addresses.rows[a] == db.addresses.rows[a]
    ensures r.customers.next == db.customers.next && r.addresses.next == db.addresses.next
    ensures r.orders.next == db.orders.next
    ensures r.orders.rows.Keys == db.orders.rows.Keys
    ensures forall o | o in r.orders.rows ::
              && r.orders.rows[o].customer != Some(id)
              && r.orders.rows[o].address !in (set a | a in AddressesOf(db, id) :: Some(a))
              && r.orders.rows[o] == ClearAddresses(ClearCustomer(db.orders.rows[o], id), AddressesOf(db, id))
    ensures r.categories == db.categories && r.products == db.products
    ensures r.items == db.items && r.payments == db.payments
  {
    var gone := AddressesOf(db, id);
    var orders := map o | o in db.orders.rows :: ClearAddresses(ClearCustomer(db.orders.rows[o], id), gone);
    db.(customers := db.customers.(rows := db.customers.rows - {id}),
        addresses := db.addresses.(rows := db.addresses.rows - gone),
        orders := db.orders.(rows := orders))
  }

  /** Deleting an order deletes its items and its payments (CASCADE). */
  function DeleteOrder(db: Db, id: nat): (r: Db)
    ensures r.orders.rows.Keys == db.orders.rows.Keys - {id}
    ensures forall o | o in r.orders.rows :: r.orders.rows[o] == db.orders.rows[o]
    ensures forall i :: i in r.items.rows <==> i in db.items.rows && db.items.rows[i].order != id
    ensures forall i | i in r.items.rows :: r.items.rows[i] == db.items.rows[i]
    ensures forall p :: p in r.payments.rows <==> p in db.payments.rows && db.payments.rows[p].order != id
    ensures forall p | p in r.payments.rows :: r.payments.rows[p] == db.payments.rows[p]
    ensures r.orders.next == db.orders.next && r.items.next == db.items.next
    ensures r.payments.next == db.payments.next
    ensures r.categories == db.categories && r.products == db.products
    ensures r.customers == db.customers && r.addresses == db.addresses
  {
    var items := db.items.Where((i: OrderItem) => i.order == id);
    var payments := db.payments.Where((p: Payment) => p.order == id);
    db.(orders := db.orders.(rows := db.orders.rows - {id}),
        items := db.items.(rows := db.items.rows - items),
        payments := db.payments.(rows := db.payments.rows - payments))
  }

  /** Deleting a category leaves no dangling foreign key. */
  lemma DeleteCategoryPreservesValid(db: Db, id: nat)
    requires Valid(db)
    ensures Valid(DeleteCategory(db, id))
  {
    var r := DeleteCategory(db, id);
    assert KeysWellFormed(r);
    forall p | p in r.products.rows
      ensures IsMoney(r.products.rows[p].price) && RefOk(r.products.rows[p].category, r.categories)
    {
      assert r.products.rows[p] == ClearCategory(db.products.rows[p], id);
    }
  }

  /** Deleting a product leaves no dangling foreign key. */
  lemma DeleteProductPreservesValid(db: Db, id: nat)
    requires Valid(db)
    ensures Valid(DeleteProduct(db, id))
  {
    var r := DeleteProduct(db, id);
    assert KeysWellFormed(r);
    forall i | i in r.items.rows ensures IsMoney(r.items.rows[i].unitPrice) && r.items.rows[i].quantity >= 0 {
      assert r.items.rows[i].unitPrice == db.items.rows[i].unitPrice;
    }
    forall i | i in r.items.rows
      ensures r.items.rows[i].order in r.orders.rows && RefOk(r.items.rows[i].product, r.products)
    {
      assert r.items.rows[i] == ClearProduct(db.items.rows[i], id);
    }
  }

  /** Deleting an address leaves no dangling foreign key. */
  lemma DeleteAddressPreservesValid(db: Db, id: nat)
    requires Valid(db)
    ensures Valid(DeleteAddress(db, id))
  {
  }

  /** Deleting a customer leaves no dangling foreign key. */
  lemma DeleteCustomerPreservesValid(db: Db, id: nat)
    requires Valid(db)
    ensures Valid(DeleteCustomer(db, id))
  {
    var r := DeleteCustomer(db, id);
    assert KeysWellFormed(r);
    assert ColumnsFit(r);
    forall a | a in r.addresses.rows ensures r.addresses.rows[a].customer in r.customers.rows {
      assert r.addresses.rows[a] == db.addresses.rows[a];
    }
    var gone := AddressesOf(db, id);
    forall a | a in db.addresses.rows && a !in gone ensures a in r.addresses.rows {
      assert db.addresses.rows[a].customer != id;
    }
    forall o | o in r.orders.rows
      ensures RefOk(r.orders.rows[o].customer, r.customers) && RefOk(r.orders.rows[o].address, r.addresses)
    {
      ClearedOrderResolves(db.orders.rows[o], id, gone, db, r);
    }
  }

  /** An order that loses a deleted customer and the deleted addresses points only at rows that remain. */
  lemma ClearedOrderResolves(o: Order, id: nat, gone: set<nat>, before: Db, after: Db)
    requires RefOk(o.customer, before.customers) && RefOk(o.address, before.addresses)
    requires forall c | c in before.customers.rows && c != id :: c in after.customers.rows
    requires forall a | a in before.addresses.rows && a !in gone :: a in after.addresses.rows
    ensures var cleared := ClearAddresses(ClearCustomer(o, id), gone);
            RefOk(cleared.customer, after.customers) && RefOk(cleared.address, after.addresses)
  {
  }

  /** Deleting an order leaves no dangling foreign key. */
  lemma DeleteOrderPreservesValid(db: Db, id: nat)
    requires Valid(db)
    ensures Valid(DeleteOrder(db, id))
  {
  }
}

=== FILE: order_properties.dfy ===
/**
 * What order placement guarantees: stock drops by exactly what the cart asks and never below
 * zero, the order succeeds exactly when every line fits the stock left by the lines before it,
 * the total is the sum of the items' price times quantity, there is one item per line in line
 * order at the price of placement time, the customer is found or created by phone, the
 * address is created only when given, and the database invariant is kept.
 */
module OrderProperties {
  import opened Wrappers
  import opened Models
  import opened Serializers

  // ---------------------------------------------------------------------------
  // Reference definitions

  /** The total quantity the lines ask of product `pid`. */
  function QtyFor(lines: seq<LineData>, pid: nat): int
    decreases |lines|
  {
    if lines == [] then 0
    else QtyFor(lines[..|lines| - 1], pid) + (if lines[|lines| - 1].product == pid then Qty(lines[|lines| - 1]) else 0)
  }

  /** The catalog price of product `pid` (0 for an unknown key). */
  function PriceOf(db: Db, pid: nat): int {
    if pid in db.products.rows then db.products.rows[pid].price else 0
  }

  /** The sum of catalog price times quantity over the lines. */
  function LinesCost(db: Db, lines: seq<LineData>): int
    decreases |lines|
  {
    if lines == [] then 0
    else LinesCost(db, lines[..|lines| - 1]) + PriceOf(db, lines[|lines| - 1].product) * Qty(lines[|lines| - 1])
  }

  /** The sum of unit price times quantity over the items stored under `ids`. */
  function ItemsTotal(db: Db, ids: seq<nat>): int
    decreases |ids|
  {
    if ids == [] then 0
    else
      var id := ids[|ids| - 1];
      ItemsTotal(db, ids[..|ids| - 1]) + (if id in db.items.rows then db.items.rows[id].unitPrice * db.items.rows[id].quantity else 0)
  }

  /** The item a line becomes: the product, the quantity and the catalog price. */
  function ItemFor(db: Db, order: nat, line: LineData): OrderItem {
    OrderItem(order, Some(line.product), Qty(line), PriceOf(db, line.product))
  }

  /** `n` consecutive keys from `from`. */
  function Keys(from: nat, n: nat): (r: seq<nat>)
    ensures |r| == n && forall k | 0 <= k < n :: r[k] == from + k
  {
    seq(n, k requires 0 <= k < n => from + k)
  }

  /** Every line asks at least 1 of an existing product, and no product is asked more than its stock in total. */
  predicate StockCovers(db: Db, lines: seq<LineData>) {
    forall k | 0 <= k < |lines| ::
      && Qty(lines[k]) >= 1
      && lines[k].product in db.products.rows
      && QtyFor(lines, lines[k].product) <= db.products.rows[lines[k].product].stock
  }

  // ---------------------------------------------------------------------------
  // The loop over the lines

  /** The loop changes product stocks only: each by exactly the total quantity its lines ask. */
  lemma {:induction false} AddLinesProducts(start: Progress, order: nat, lines: seq<LineData>)
    requires AddLines(start, order, lines).Ok?
    ensures var p := AddLines(start, order, lines).value;
            && p.db.products.rows.Keys == start.db.products.rows.Keys
            && p.db.products.next == start.db.products.next
            && forall pid | pid in start.db.products.rows ::
                 p.db.products.rows[pid] ==
                 start.db.products.rows[pid].(stock := start.db.products.rows[pid].stock - QtyFor(lines, pid))
    decreases |lines|
  {
    if lines != [] {
      AddLinesProducts(start, order, lines[..|lines| - 1]);
    }
  }

  /** The loop leaves every table but products and items alone. */
  lemma {:induction false} AddLinesFrame(start: Progress, order: nat, lines: seq<LineData>)
    requires AddLines(start, order, lines).Ok?
    ensures var p := AddLines(start, order, lines).value;
            && p.db.categories == start.db.categories && p.db.customers == start.db.customers
            && p.db.addresses == start.db.addresses && p.db.orders == start.db.orders
            && p.db.payments == start.db.payments
    decreases |lines|
  {
    if lines != [] {
      AddLinesFrame(start, order, lines[..|lines| - 1]);
    }
  }

  /** The loop hands out one fresh item key per line, consecutively, and records them in line order. */
  lemma {:induction false} AddLinesItemKeys(start: Progress, order: nat, lines: seq<LineData>)
    requires start.db.items.WellFormed()
    requires AddLines(start, order, lines).Ok?
    ensures var p := AddLines(start, order, lines).value;
            var n0 := start.db.items.next;
            && p.db.items.next == n0 + |lines|
            && p.items == start.items + Keys(n0, |lines|)
            && p.db.items.WellFormed()
            && (forall i :: i in p.db.items.rows <==> i in start.db.items.rows || n0 <= i < n0 + |lines|)
    decreases |lines|
  {
    if lines != [] {
      var init := lines[..|lines| - 1];
      AddLinesItemKeys(start, order, init);
      var n0 := start.db.items.next;
      assert Keys(n0, |init|) + [n0 + |init|] == Keys(n0, |lines|);
    }
  }

  /**
   * The item stored under the k-th new key is line k at the catalog price of its product;
   * items that existed before are untouched.
   */
  lemma {:induction false} AddLinesItemRows(start: Progress, order: nat, lines: seq<LineData>)
    requires start.db.items.WellFormed()
    requires AddLines(start, order, lines).Ok?
    ensures var p := AddLines(start, order, lines).value;
            var n0 := start.db.items.next;
            && (forall i | i in start.db.items.rows :: i in p.db.items.rows && p.db.items.rows[i] == start.db.items.rows[i])
            && (forall k | 0 <= k < |lines| :: ItemAt(p.db.items.rows, n0 + k, ItemFor(start.db, order, lines[k])))
    decreases |lines|
  {
    if lines != [] {
      var init := lines[..|lines| - 1];
      var last := lines[|lines| - 1];
      AddLinesItemRows(start, order, init);
      AddLinesNextItem(start, order, init);
      var q := AddLines(start, order, init).value;
      var p := AddLines(start, order, lines).value;
      AddLinesKeepsPrice(start, order, init, last.product);
      AddLineItem(q, order, last);
      assert p == AddLine(q, order, last).value;
      assert lines == init + [last];
      ItemRowsStep(start.db, order, init, last, lines, q.db.items.rows, p.db.items.rows);
    }
  }

  /** The item table holds `item` under `key`. */
  predicate ItemAt(rows: map<nat, OrderItem>, key: nat, item: OrderItem) {
    key in rows && rows[key] == item
  }

  /** The item table after one more line, given the table after the lines before it. */
  lemma ItemRowsStep(db: Db, order: nat, init: seq<LineData>, last: LineData, lines: seq<LineData>,
                     before: map<nat, OrderItem>, after: map<nat, OrderItem>)
    requires db.items.WellFormed() && lines == init + [last]
    requires forall i | i in db.items.rows :: i in before && before[i] == db.items.rows[i]
    requires forall k | 0 <= k < |init| :: ItemAt(before, db.items.next + k, ItemFor(db, order, init[k]))
    requires after == before[db.items.next + |init| := ItemFor(db, order, last)]
    ensures forall i | i in db.items.rows :: i in after && after[i] == db.items.rows[i]
    ensures forall k | 0 <= k < |lines| :: ItemAt(after, db.items.next + k, ItemFor(db, order, lines[k]))
  {
    forall i | i in db.items.rows
      ensures i in after && after[i] == db.items.rows[i]
    {
      assert i < db.items.next;
    }
    forall k | 0 <= k < |lines|
      ensures ItemAt(after, db.items.next + k, ItemFor(db, order, lines[k]))
    {
      if k < |init| {
        assert lines[k] == init[k];
      }
    }
  }

  /** A loop that goes through records the item keys it hands out, consecutively. */
  lemma AddLinesRecordsKeys(start: Progress, order: nat, lines: seq<LineData>)
    requires start.db.items.WellFormed()
    requires AddLines(start, order, lines).Ok?
    ensures AddLines(start, order, lines).value.items == start.items + Keys(start.db.items.next, |lines|)
  {
    AddLinesItemKeys(start, order, lines);
  }

  /** A loop that goes through keeps every product's price. */
  lemma AddLinesKeepsPrice(start: Progress, order: nat, lines: seq<LineData>, pid: nat)
    requires AddLines(start, order, lines).Ok?
    ensures PriceOf(AddLines(start, order, lines).value.db, pid) == PriceOf(start.db, pid)
  {
    AddLinesProducts(start, order, lines);
  }

  /** A loop that goes through uses one item key per line. */
  lemma AddLinesNextItem(start: Progress, order: nat, lines: seq<LineData>)
    requires start.db.items.WellFormed()
    requires AddLines(start, order, lines).Ok?
    ensures AddLines(start, order, lines).value.db.items.next == start.db.items.next + |lines|
  {
    AddLinesItemKeys(start, order, lines);
  }

  /** One line that goes through stores its item under the next key and keeps the other items. */
  lemma AddLineItem(p: Progress, order: nat, line: LineData)
    requires AddLine(p, order, line).Ok?
    ensures AddLine(p, order, line).value.db.items.rows == p.db.items.rows[p.db.items.next := ItemFor(p.db, order, line)]
  {
  }

  /** The running total ends as the starting total plus price times quantity over the lines. */
  lemma {:induction false} AddLinesTotal(start: Progress, order: nat, lines: seq<LineData>)
    requires AddLines(start, order, lines).Ok?
    ensures AddLines(start, order, lines).value.total == start.total + LinesCost(start.db, lines)
    decreases |lines|
  {
    if lines != [] {
      AddLinesTotal(start, order, lines[..|lines| - 1]);
      AddLinesProducts(start, order, lines[..|lines| - 1]);
    }
  }

  /**
   * The loop succeeds exactly when every line asks at least 1 of an existing product and no
   * product is asked more than its stock over all lines (lines for the same product add up).
   */
  lemma {:induction false} AddLinesSucceedsIff(start: Progress, order: nat, lines: seq<LineData>)
    ensures AddLines(start, order, lines).Ok? <==> StockCovers(start.db, lines)
    decreases |lines|
  {
    if lines == [] {
      return;
    }
    var init := lines[..|lines| - 1];
    var last := lines[|lines| - 1];
    assert lines == init + [last];
    AddLinesSucceedsIff(start, order, init);
    if AddLines(start, order, lines).Ok? {
      AddLinesProducts(start, order, init);
      CoversStep(start.db, init, last, lines);
    } else if StockCovers(start.db, lines) {
      CoversInit(start.db, init, last, lines);
      AddLinesProducts(start, order, init);
      assert false;
    }
  }

  /** The quantity asked of a product after one more line. */
  lemma QtyForLast(init: seq<LineData>, last: LineData, lines: seq<LineData>, pid: nat)
    requires lines == init + [last]
    ensures QtyFor(lines, pid) == QtyFor(init, pid) + (if last.product == pid then Qty(last) else 0)
  {
    assert lines[..|lines| - 1] == init;
  }

  /** Lines covered by the stock stay covered after one more line the stock left over covers. */
  lemma CoversStep(db: Db, init: seq<LineData>, last: LineData, lines: seq<LineData>)
    requires lines == init + [last]
    requires StockCovers(db, init)
    requires Qty(last) >= 1 && last.product in db.products.rows
    requires QtyFor(init, last.product) + Qty(last) <= db.products.rows[last.product].stock
    ensures StockCovers(db, lines)
  {
    forall k | 0 <= k < |lines|
      ensures Qty(lines[k]) >= 1 && lines[k].product in db.products.rows
      ensures QtyFor(lines, lines[k].product) <= db.products.rows[lines[k].product].stock
    {
      QtyForLast(init, last, lines, lines[k].product);
      if k < |init| {
        assert lines[k] == init[k];
      }
    }
  }

  /** Covered lines without their last line are covered, and the last line fits what the others leave. */
  lemma CoversInit(db: Db, init: seq<LineData>, last: LineData, lines: seq<LineData>)
    requires lines == init + [last]
    requires StockCovers(db, lines)
    ensures StockCovers(db, init)
    ensures Qty(last) >= 1 && last.product in db.products.rows
    ensures QtyFor(init, last.product) + Qty(last) <= db.products.rows[last.product].stock
  {
    assert lines[|init|] == last;
    QtyForLast(init, last, lines, last.product);
    forall k | 0 <= k < |init|
      ensures Qty(init[k]) >= 1 && init[k].product in db.products.rows
      ensures QtyFor(init, init[k].product) <= db.products.rows[init[k].product].stock
    {
      assert init[k] == lines[k];
      QtyForLast(init, last, lines, init[k].product);
    }
  }

  /** A product that no line names is asked for nothing. */
  lemma {:induction false} QtyForAbsent(lines: seq<LineData>, pid: nat)
    requires forall k | 0 <= k < |lines| :: lines[k].product != pid
    ensures QtyFor(lines, pid) == 0
    decreases |lines|
  {
    if lines != [] {
      QtyForAbsent(lines[..|lines| - 1], pid);
    }
  }

  /** Unit price times quantity over the items made from the lines is catalog price times quantity over the lines. */
  lemma {:induction false} ItemsTotalOfLines(after: Db, db: Db, order: nat, lines: seq<LineData>, ids: seq<nat>)
    requires |ids| == |lines|
    requires forall k | 0 <= k < |lines| ::
               ids[k] in after.items.rows && after.items.rows[ids[k]] == ItemFor(db, order, lines[k])
    ensures ItemsTotal(after, ids) == LinesCost(db, lines)
    decreases |lines|
  {
    if lines != [] {
      var init := lines[..|lines| - 1];
      var initIds := ids[..|ids| - 1];
      forall k | 0 <= k < |init|
        ensures initIds[k] in after.items.rows && after.items.rows[initIds[k]] == ItemFor(db, order, init[k])
      {
        assert init[k] == lines[k] && initIds[k] == ids[k];
      }
      ItemsTotalOfLines(after, db, order, init, initIds);
    }
  }

  // ---------------------------------------------------------------------------
  // The whole placement

  /** The database once the header is created: one more order, maybe one more address and customer. */
  lemma HeaderFacts(db: Db, req: OrderData, now: int)
    requires ResolveCustomer(db, req.customer).Ok?
    ensures var rc := ResolveCustomer(db, req.customer).value;
            var header := Header(rc, req, now);
            && header.products == db.products && header.items == db.items
            && header.categories == db.categories && header.payments == db.payments
            && header.customers == rc.db.customers
            && header.addresses == CreateAddress(db, rc.customer, req.address).addresses
            && header.orders == db.orders.Insert(
                 NewOrder(rc.customer, AddressKey(db, req.address), req.paymentMethod, req.scheduledFor, req.notes, now))
  {
  }

  /** A successful placement runs validation, the customer lookup, the header and the whole loop. */
  lemma PlaceSteps(db: Db, req: OrderData, now: int)
    requires Place(db, req, now).Ok?
    ensures ValidateItems(db, req.items).Ok?
    ensures ResolveCustomer(db, req.customer).Ok?
    ensures var rc := ResolveCustomer(db, req.customer).value;
            var lines := AddLines(Progress(Header(rc, req, now), 0, []), db.orders.next, req.items);
            && lines.Ok?
            && Place(db, req, now).value ==
               Placed(SetTotal(lines.value.db, db.orders.next, lines.value.total), db.orders.next, rc.customer, lines.value.items)
  {
    HeaderFacts(db, req, now);
  }

  /**
   * An order is placed exactly when the cart is non-empty, names only active products, at most
   * one customer has the phone, every quantity is at least 1 and no product is asked more than
   * its stock over all lines.
   */
  lemma PlaceSucceedsIff(db: Db, req: OrderData, now: int)
    ensures Place(db, req, now).Ok? <==>
              && |req.items| > 0
              && (forall k | 0 <= k < |req.items| :: IsActiveProduct(db, req.items[k].product))
              && |WithPhone(db, req.customer.phone)| <= 1
              && StockCovers(db, req.items)
  {
    if ValidateItems(db, req.items).Ok? && ResolveCustomer(db, req.customer).Ok? {
      var rc := ResolveCustomer(db, req.customer).value;
      var header := Header(rc, req, now);
      HeaderFacts(db, req, now);
      AddLinesSucceedsIff(Progress(header, 0, []), db.orders.next, req.items);
    }
  }

  /** An empty cart is refused, whatever else the request holds. */
  lemma EmptyCartRejected(db: Db, req: OrderData, now: int)
    requires req.items == []
    ensures Place(db, req, now) == Err(EmptyItems)
  {
  }

  /**
   * After a placement every product keeps all its fields but stock, and its stock drops by
   * exactly the total quantity the lines ask of it (two lines for one product both count).
   */
  lemma PlaceStock(db: Db, req: OrderData, now: int)
    requires Place(db, req, now).Ok?
    ensures var after := Place(db, req, now).value.db;
            && after.products.rows.Keys == db.products.rows.Keys && after.products.next == db.products.next
            && forall pid | pid in db.products.rows ::
                 after.products.rows[pid] ==
                 db.products.rows[pid].(stock := db.products.rows[pid].stock - QtyFor(req.items, pid))
  {
    PlaceSteps(db, req, now);
    HeaderFacts(db, req, now);
    var rc := ResolveCustomer(db, req.customer).value;
    AddLinesProducts(Progress(Header(rc, req, now), 0, []), db.orders.next, req.items);
  }

  /**
   * Stock never goes negative through a placement: every product a line names ends at 0 or
   * more, no stock grows, and a product that started non-negative stays non-negative.
   */
  lemma PlaceKeepsStockNonNegative(db: Db, req: OrderData, now: int)
    requires Place(db, req, now).Ok?
    ensures var after := Place(db, req, now).value.db;
            && (forall k | 0 <= k < |req.items| ::
                  req.items[k].product in after.products.rows && after.products.rows[req.items[k].product].stock >= 0)
            && (forall pid | pid in db.products.rows ::
                  pid in after.products.rows && after.products.rows[pid].stock <= db.products.rows[pid].stock)
            && (forall pid | pid in db.products.rows && db.products.rows[pid].stock >= 0 ::
                  pid in after.products.rows && after.products.rows[pid].stock >= 0)
  {
    PlaceStock(db, req, now);
    PlaceSucceedsIff(db, req, now);
    var after := Place(db, req, now).value.db;
    forall pid | pid in db.products.rows
      ensures after.products.rows[pid].stock <= db.products.rows[pid].stock
      ensures db.products.rows[pid].stock >= 0 ==> after.products.rows[pid].stock >= 0
    {
      if k :| 0 <= k < |req.items| && req.items[k].product == pid {
        assert QtyFor(req.items, pid) >= Qty(req.items[k]) >= 1 by {
          QtyForCoversLine(req.items, k);
        }
      } else {
        QtyForAbsent(req.items, pid);
      }
    }
  }

  /** The total of a product's lines is at least the quantity of any one of them, when all quantities are positive. */
  lemma {:induction false} QtyForCoversLine(lines: seq<LineData>, k: nat)
    requires k < |lines|
    requires forall j | 0 <= j < |lines| :: Qty(lines[j]) >= 1
    ensures QtyFor(lines, lines[k].product) >= Qty(lines[k])
    decreases |lines|
  {
    var init := lines[..|lines| - 1];
    if k < |init| {
      assert init[k] == lines[k];
      QtyForCoversLine(init, k);
    } else {
      QtyForNonNegative(init, lines[k].product);
    }
  }

  /** With positive quantities, no product is asked a negative amount. */
  lemma {:induction false} QtyForNonNegative(lines: seq<LineData>, pid: nat)
    requires forall j | 0 <= j < |lines| :: Qty(lines[j]) >= 1
    ensures QtyFor(lines, pid) >= 0
    decreases |lines|
  {
    if lines != [] {
      QtyForNonNegative(lines[..|lines| - 1], pid);
    }
  }

  /** The loop's view of a successful placement: its start state and its outcome. */
  function LoopStart(db: Db, req: OrderData, now: int): Progress
    requires ResolveCustomer(db, req.customer).Ok?
  {
    Progress(Header(ResolveCustomer(db, req.customer).value, req, now), 0, [])
  }

  /**
   * A placed order has exactly one item per line, in line order, under fresh increasing keys;
   * item k holds line k's product and quantity at that product's price before placement; items
   * that existed are untouched.
   */
  lemma PlaceItems(db: Db, req: OrderData, now: int)
    requires db.items.WellFormed()
    requires Place(db, req, now).Ok?
    ensures var pl := Place(db, req, now).value;
            && |pl.items| == |req.items|
            && (forall k | 0 <= k < |req.items| ::
                  && pl.items[k] !in db.items.rows
                  && pl.items[k] in pl.db.items.rows
                  && pl.db.items.rows[pl.items[k]] == ItemFor(db, pl.order, req.items[k]))
            && (forall j, k | 0 <= j < k < |pl.items| :: pl.items[j] < pl.items[k])
            && (forall i :: i in pl.db.items.rows <==> i in db.items.rows || i in pl.items)
            && (forall i | i in db.items.rows :: pl.db.items.rows[i] == db.items.rows[i])
            && pl.db.items.WellFormed()
  {
    PlaceSteps(db, req, now);
    HeaderFacts(db, req, now);
    var start := LoopStart(db, req, now);
    var order := db.orders.next;
    var lp := AddLines(start, order, req.items).value;
    var pl := Place(db, req, now).value;
    assert pl == Placed(SetTotal(lp.db, order, lp.total), order, pl.customer, lp.items);
    assert pl.db.items == lp.db.items;
    AddLinesItemList(db, start, order, req.items);
    AddLinesItemValues(db, start, order, req.items);
  }

  /**
   * The loop, started with no items, records one fresh key per line, increasing, and stores
   * items under exactly those keys besides the ones there were.
   */
  lemma AddLinesItemList(db: Db, start: Progress, order: nat, lines: seq<LineData>)
    requires start.db.items == db.items && start.items == []
    requires db.items.WellFormed()
    requires AddLines(start, order, lines).Ok?
    ensures var lp := AddLines(start, order, lines).value;
            && |lp.items| == |lines|
            && (forall k | 0 <= k < |lines| :: lp.items[k] == db.items.next + k && lp.items[k] !in db.items.rows)
            && (forall j, k | 0 <= j < k < |lp.items| :: lp.items[j] < lp.items[k])
            && (forall i :: i in lp.db.items.rows <==> i in db.items.rows || i in lp.items)
            && lp.db.items.WellFormed()
  {
    var lp := AddLines(start, order, lines).value;
    var n0 := db.items.next;
    AddLinesItemKeys(start, order, lines);
    assert lp.items == Keys(n0, |lines|);
    forall i ensures i in lp.db.items.rows <==> i in db.items.rows || i in lp.items {
      if n0 <= i < n0 + |lines| {
        assert lp.items[i - n0] == i;
      }
    }
  }

  /**
   * The loop, started with no items, stores line k's item under the k-th recorded key, at the
   * price `db` gives its product, and keeps the items there were.
   */
  lemma AddLinesItemValues(db: Db, start: Progress, order: nat, lines: seq<LineData>)
    requires start.db.items == db.items && start.db.products == db.products && start.items == []
    requires db.items.WellFormed()
    requires AddLines(start, order, lines).Ok?
    ensures var lp := AddLines(start, order, lines).value;
            && |lp.items| == |lines|
            && (forall k | 0 <= k < |lines| ::
                  lp.items[k] in lp.db.items.rows && lp.db.items.rows[lp.items[k]] == ItemFor(db, order, lines[k]))
            && (forall i | i in db.items.rows :: i in lp.db.items.rows && lp.db.items.rows[i] == db.items.rows[i])
  {
    var lp := AddLines(start, order, lines).value;
    var n0 := db.items.next;
    AddLinesRecordsKeys(start, order, lines);
    AddLinesItemRows(start, order, lines);
    ItemsAtKeys(start.db, db, order, lines, n0, lp.items, lp.db.items.rows);
  }

  /** Items stored under consecutive keys, read back through the list of those keys. */
  lemma ItemsAtKeys(before: Db, db: Db, order: nat, lines: seq<LineData>, n0: nat, keys: seq<nat>, rows: map<nat, OrderItem>)
    requires before.products == db.products
    requires keys == [] + Keys(n0, |lines|)
    requires forall k | 0 <= k < |lines| :: ItemAt(rows, n0 + k, ItemFor(before, order, lines[k]))
    ensures |keys| == |lines|
    ensures forall k | 0 <= k < |lines| :: keys[k] in rows && rows[keys[k]] == ItemFor(db, order, lines[k])
  {
    forall k | 0 <= k < |lines|
      ensures keys[k] in rows && rows[keys[k]] == ItemFor(db, order, lines[k])
    {
      assert keys[k] == n0 + k;
      assert ItemAt(rows, n0 + k, ItemFor(before, order, lines[k]));
    }
  }

  /**
   * The order's total is catalog price times quantity summed over the lines, and equally
   * unit price times quantity summed over the order's items.
   */
  lemma PlaceTotal(db: Db, req: OrderData, now: int)
    requires db.items.WellFormed() && db.orders.WellFormed()
    requires Place(db, req, now).Ok?
    ensures var pl := Place(db, req, now).value;
            && pl.order in pl.db.orders.rows
            && pl.db.orders.rows[pl.order].totalAmount == LinesCost(db, req.items)
            && pl.db.orders.rows[pl.order].totalAmount == ItemsTotal(pl.db, pl.items)
  {
    PlaceOrderRow(db, req, now);
    PlaceItems(db, req, now);
    var pl := Place(db, req, now).value;
    ItemsTotalOfLines(pl.db, db, pl.order, req.items, pl.items);
  }

  /**
   * The order header of a placement: a fresh key, the resolved customer, the new address or
   * null, the lines' total, status NEW, the given payment method or 'COD', placed now.
   */
  lemma PlaceOrderRow(db: Db, req: OrderData, now: int)
    requires db.orders.WellFormed()
    requires Place(db, req, now).Ok?
    ensures var pl := Place(db, req, now).value;
            && pl.order == db.orders.next && pl.order !in db.orders.rows
            && pl.db.orders.rows == db.orders.rows[pl.order := Order(
                 Some(pl.customer), AddressKey(db, req.address), LinesCost(db, req.items),
                 req.paymentMethod.GetOr(DefaultPaymentMethod), New, now, req.scheduledFor, req.notes)]
            && pl.db.orders.next == db.orders.next + 1
  {
    PlaceSteps(db, req, now);
    HeaderFacts(db, req, now);
    var rc := ResolveCustomer(db, req.customer).value;
    var start := LoopStart(db, req, now);
    var order := db.orders.next;
    var lp := AddLines(start, order, req.items).value;
    var pl := Place(db, req, now).value;
    assert pl == Placed(SetTotal(lp.db, order, lp.total), order, rc.customer, lp.items);
    AddLinesTotal(start, order, req.items);
    AddLinesFrame(start, order, req.items);
    var header := NewOrder(rc.customer, AddressKey(db, req.address), req.paymentMethod, req.scheduledFor, req.notes, now);
    assert lp.db.orders == db.orders.Insert(header);
    assert start.db.products == db.products;
    assert LinesCost(start.db, req.items) == LinesCost(db, req.items) by {
      LinesCostReadsProducts(start.db, db, req.items);
    }
    assert pl.db.orders.rows == db.orders.rows[order := header.(totalAmount := lp.total)];
  }

  /** The cost of the lines depends only on the product table. */
  lemma {:induction false} LinesCostReadsProducts(a: Db, b: Db, lines: seq<LineData>)
    requires a.products == b.products
    ensures LinesCost(a, lines) == LinesCost(b, lines)
    decreases |lines|
  {
    if lines != [] {
      LinesCostReadsProducts(a, b, lines[..|lines| - 1]);
    }
  }

  /**
   * The customer is looked up by phone: the one customer with that phone is reused unchanged
   * (its name and email are not overwritten); with none, a customer is created from the request.
   */
  lemma PlaceCustomer(db: Db, req: OrderData, now: int)
    requires Place(db, req, now).Ok?
    ensures var pl := Place(db, req, now).value;
            var matches := WithPhone(db, req.customer.phone);
            && |matches| <= 1
            && (|matches| == 1 ==> matches == {pl.customer} && pl.db.customers == db.customers)
            && (|matches| == 0 ==>
                  && pl.customer == db.customers.next
                  && pl.db.customers == db.customers.Insert(Customer(req.customer.name, req.customer.phone, req.customer.email)))
  {
    PlaceSteps(db, req, now);
    HeaderFacts(db, req, now);
    AddLinesFrame(LoopStart(db, req, now), db.orders.next, req.items);
  }

  /**
   * An address row is created only when the request gives one, owned by the order's customer;
   * otherwise the address table is unchanged. Categories and payments are never touched.
   */
  lemma PlaceAddress(db: Db, req: OrderData, now: int)
    requires Place(db, req, now).Ok?
    ensures var pl := Place(db, req, now).value;
            && (req.address.None? ==> pl.db.addresses == db.addresses)
            && (req.address.Some? ==>
                  var a := req.address.value;
                  pl.db.addresses == db.addresses.Insert(Address(pl.customer, a.line1, a.city, a.pincode, a.instructions)))
            && pl.db.categories == db.categories && pl.db.payments == db.payments
  {
    PlaceSteps(db, req, now);
    HeaderFacts(db, req, now);
    AddLinesFrame(LoopStart(db, req, now), db.orders.next, req.items);
  }

  /** Two orders from the same phone in a row share one customer record. */
  lemma SamePhoneSameCustomer(db: Db, first: OrderData, second: OrderData, t1: int, t2: int)
    requires db.customers.WellFormed()
    requires first.customer.phone == second.customer.phone
    requires Place(db, first, t1).Ok?
    requires Place(Place(db, first, t1).value.db, second, t2).Ok?
    ensures var p1 := Place(db, first, t1).value;
            var p2 := Place(p1.db, second, t2).value;
            && p2.customer == p1.customer
            && p2.db.customers == p1.db.customers
            && WithPhone(p2.db, first.customer.phone) == {p1.customer}
  {
    var p1 := Place(db, first, t1).value;
    var phone := first.customer.phone;
    PlaceCustomer(db, first, t1);
    if |WithPhone(db, phone)| == 0 {
      assert WithPhone(p1.db, phone) == {p1.customer};
    }
    PlaceCustomer(p1.db, second, t2);
  }

  // ---------------------------------------------------------------------------
  // The database invariant

  /** Every key stays below its table's next key. */
  lemma PlaceKeepsKeys(db: Db, req: OrderData, now: int)
    requires KeysWellFormed(db)
    requires Place(db, req, now).Ok?
    ensures KeysWellFormed(Place(db, req, now).value.db)
  {
    PlaceStock(db, req, now);
    PlaceCustomer(db, req, now);
    PlaceAddress(db, req, now);
    PlaceOrderRow(db, req, now);
    PlaceItems(db, req, now);
  }

  /** The order's customer exists afterwards, whether it was found or created. */
  lemma PlaceCustomerExists(db: Db, req: OrderData, now: int)
    requires Place(db, req, now).Ok?
    ensures var pl := Place(db, req, now).value;
            pl.customer in pl.db.customers.rows
  {
    var pl := Place(db, req, now).value;
    PlaceCustomer(db, req, now);
    if |WithPhone(db, req.customer.phone)| == 1 {
      assert pl.customer in WithPhone(db, req.customer.phone);
    }
  }

  /** Products, addresses and orders still point at existing rows. */
  lemma PlaceKeepsHeaderReferences(db: Db, req: OrderData, now: int)
    requires Valid(db)
    requires Place(db, req, now).Ok?
    ensures var after := Place(db, req, now).value.db;
            && (forall id | id in after.products.rows :: RefOk(after.products.rows[id].category, after.categories))
            && (forall id | id in after.addresses.rows :: after.addresses.rows[id].customer in after.customers.rows)
            && (forall id | id in after.orders.rows ::
                  RefOk(after.orders.rows[id].customer, after.customers) && RefOk(after.orders.rows[id].address, after.addresses))
  {
    PlaceProductReferences(db, req, now);
    PlaceAddressReferences(db, req, now);
    PlaceOrderReferences(db, req, now);
  }

  /** Every product still names an existing category or none. */
  lemma PlaceProductReferences(db: Db, req: OrderData, now: int)
    requires Valid(db)
    requires Place(db, req, now).Ok?
    ensures var after := Place(db, req, now).value.db;
            forall id | id in after.products.rows :: RefOk(after.products.rows[id].category, after.categories)
  {
    var after := Place(db, req, now).value.db;
    PlaceStock(db, req, now);
    PlaceAddress(db, req, now);
    forall id | id in after.products.rows ensures RefOk(after.products.rows[id].category, after.categories) {
      assert after.products.rows[id].category == db.products.rows[id].category;
    }
  }

  /** The customer table only grows, and every address row still names an existing customer. */
  lemma PlaceAddressReferences(db: Db, req: OrderData, now: int)
    requires Valid(db)
    requires Place(db, req, now).Ok?
    ensures var after := Place(db, req, now).value.db;
            && (forall c | c in db.customers.rows :: c in after.customers.rows)
            && (forall id | id in after.addresses.rows :: after.addresses.rows[id].customer in after.customers.rows)
  {
    var pl := Place(db, req, now).value;
    PlaceCustomer(db, req, now);
    PlaceCustomerExists(db, req, now);
    PlaceAddress(db, req, now);
    forall id | id in pl.db.addresses.rows ensures pl.db.addresses.rows[id].customer in pl.db.customers.rows {
      if id in db.addresses.rows && pl.db.addresses.rows[id] == db.addresses.rows[id] {
        assert db.addresses.rows[id].customer in db.customers.rows;
      }
    }
  }

  /** Every order row, the new one included, still names an existing customer and address. */
  lemma PlaceOrderReferences(db: Db, req: OrderData, now: int)
    requires Valid(db)
    requires Place(db, req, now).Ok?
    ensures var after := Place(db, req, now).value.db;
            forall id | id in after.orders.rows ::
              RefOk(after.orders.rows[id].customer, after.customers) && RefOk(after.orders.rows[id].address, after.addresses)
  {
    var pl := Place(db, req, now).value;
    PlaceAddressReferences(db, req, now);
    PlaceCustomerExists(db, req, now);
    PlaceAddress(db, req, now);
    PlaceOrderRow(db, req, now);
    forall id | id in pl.db.orders.rows
      ensures RefOk(pl.db.orders.rows[id].customer, pl.db.customers) && RefOk(pl.db.orders.rows[id].address, pl.db.addresses)
    {
      if id != pl.order {
        assert pl.db.orders.rows[id] == db.orders.rows[id];
        assert RefOk(db.orders.rows[id].address, db.addresses);
      }
    }
  }

  /** Items and payments still point at existing rows; the new items at the new order and their products. */
  lemma PlaceKeepsItemReferences(db: Db, req: OrderData, now: int)
    requires Valid(db)
    requires Place(db, req, now).Ok?
    ensures var after := Place(db, req, now).value.db;
            && (forall id | id in after.items.rows ::
                  after.items.rows[id].order in after.orders.rows && RefOk(after.items.rows[id].product, after.products))
            && (forall id | id in after.payments.rows :: after.payments.rows[id].order in after.orders.rows)
  {
    var pl := Place(db, req, now).value;
    PlaceStock(db, req, now);
    PlaceAddress(db, req, now);
    PlaceOrderRow(db, req, now);
    PlaceItems(db, req, now);
    PlaceSucceedsIff(db, req, now);
    forall id | id in pl.db.items.rows
      ensures pl.db.items.rows[id].order in pl.db.orders.rows && RefOk(pl.db.items.rows[id].product, pl.db.products)
    {
      if id !in db.items.rows {
        var k :| 0 <= k < |pl.items| && pl.items[k] == id;
        assert pl.db.items.rows[id] == ItemFor(db, pl.order, req.items[k]);
      }
    }
  }

  /** Every foreign key still names an existing row. */
  lemma PlaceKeepsReferences(db: Db, req: OrderData, now: int)
    requires Valid(db)
    requires Place(db, req, now).Ok?
    ensures ReferencesResolve(Place(db, req, now).value.db)
  {
    PlaceKeepsHeaderReferences(db, req, now);
    PlaceKeepsItemReferences(db, req, now);
  }

  /** Snapshot prices are catalog prices, which fit their column; every quantity is at least 1. */
  lemma PlaceKeepsColumns(db: Db, req: OrderData, now: int)
    requires Valid(db)
    requires Place(db, req, now).Ok?
    ensures ColumnsFit(Place(db, req, now).value.db)
  {
    var pl := Place(db, req, now).value;
    PlaceStock(db, req, now);
    PlaceAddress(db, req, now);
    PlaceItems(db, req, now);
    PlaceSucceedsIff(db, req, now);
    forall id | id in pl.db.items.rows
      ensures IsMoney(pl.db.items.rows[id].unitPrice) && pl.db.items.rows[id].quantity >= 0
    {
      if id !in db.items.rows {
        var k :| 0 <= k < |pl.items| && pl.items[k] == id;
        assert pl.db.items.rows[id] == ItemFor(db, pl.order, req.items[k]);
      }
    }
  }

  /** A placement keeps the database invariant. */
  lemma PlacePreservesValid(db: Db, req: OrderData, now: int)
    requires Valid(db)
    requires Place(db, req, now).Ok?
    ensures Valid(Place(db, req, now).value.db)
  {
    PlaceKeepsKeys(db, req, now);
    PlaceKeepsReferences(db, req, now);
    PlaceKeepsColumns(db, req, now);
  }

  /** The items pointing at the new order are exactly the ones created for its lines. */
  lemma PlaceOrderItems(db: Db, req: OrderData, now: int)
    requires Valid(db)
    requires Place(db, req, now).Ok?
    ensures var pl := Place(db, req, now).value;
            pl.db.items.Where((i: OrderItem) => i.order == pl.order) == set k | 0 <= k < |pl.items| :: pl.items[k]
  {
    var pl := Place(db, req, now).value;
    PlaceItems(db, req, now);
    PlaceOrderRow(db, req, now);
    var mine := pl.db.items.Where((i: OrderItem) => i.order == pl.order);
    forall id ensures id in mine <==> id in pl.items {
      if id in pl.items {
        var k :| 0 <= k < |pl.items| && pl.items[k] == id;
        assert pl.db.items.rows[id] == ItemFor(db, pl.order, req.items[k]);
      } else if id in pl.db.items.rows {
        assert db.items.rows[id].order in db.orders.rows;
      }
    }
  }

  // ---------------------------------------------------------------------------
  // The repository's own scenario

  /** Two active products: stock 5 at 100.00 and stock 2 at 50.00. */
  function ScenarioCatalog(): Db {
    var p1 := NewProduct("Test Item", 10000).(stock := 5);
    var p2 := NewProduct("Item 2", 5000).(stock := 2);
    EmptyDb.(products := Table(map[0 := p1, 1 := p2], 2))
  }

  /** A new customer orders 2 of the first product and 1 of the second, cash on delivery. */
  function ScenarioOrder(): OrderData {
    OrderData(
      CustomerData(Some("Test"), "9999999999", None),
      Some(AddressData("Addr", "City", "000001", None)),
      [LineData(0, Some(2)), LineData(1, Some(1))],
      Some("COD"), None, Some("none"))
  }

  /** The order is placed, the stocks become 3 and 1 and the total is 250.00. */
  lemma OrderReducesStockExample()
    ensures Place(ScenarioCatalog(), ScenarioOrder(), 0).Ok?
    ensures var pl := Place(ScenarioCatalog(), ScenarioOrder(), 0).value;
            && 0 in pl.db.products.rows && pl.db.products.rows[0].stock == 3
            && 1 in pl.db.products.rows && pl.db.products.rows[1].stock == 1
            && pl.order in pl.db.orders.rows && pl.db.orders.rows[pl.order].totalAmount == 25000
  {
    var db, req := ScenarioCatalog(), ScenarioOrder();
    var lines := req.items;
    assert lines[..1] == [LineData(0, Some(2))] && lines[..1][..0] == [];
    assert QtyFor(lines[..1], 0) == 2 && QtyFor(lines[..1], 1) == 0;
    assert lines[..|lines| - 1] == lines[..1];
    assert QtyFor(lines, 0) == 2 && QtyFor(lines, 1) == 1;
    assert WithPhone(db, req.customer.phone) == {};
    PlaceSucceedsIff(db, req, 0);
    PlaceStock(db, req, 0);
    PlaceTotal(db, req, 0);
    assert LinesCost(db, lines) == 25000;
  }
}

=== FILE: serializers.dfy ===
/**
 * Order placement (shop/serializers.py): `OrderSerializer` validation followed by
 * `OrderSerializer.create`, which in one transaction finds or creates the customer by phone,
 * creates the delivery address when one is given, creates the order header with total 0, then
 * for each cart line in the caller's order decrements the product's stock only if enough is
 * left, snapshots the product's price into an order item and grows the running total, and
 * finally stores the total. Any failure undoes every change made so far.
 *
 * `Place` is the whole operation as a function of the database; `PlaceOrder` is the
 * step-by-step version over the mutable `Store`, proved to agree with it.
 */
module Serializers {
  import opened Wrappers
  import opened Models
  import opened Database

  // ---------------------------------------------------------------------------
  // The validated request

  datatype CustomerData = CustomerData(name: Option<string>, phone: string, email: Option<string>)

  /** A delivery address as the request supplies it (the owning customer is set by `create`). */
  datatype AddressData = AddressData(line1: string, city: string, pincode: string, instructions: Option<string>)

  /** One cart line: a product key and, unless omitted, a quantity. */
  datatype LineData = LineData(product: nat, quantity: Option<int>)

  datatype OrderData = OrderData(
    customer: CustomerData,
    address: Option<AddressData>,
    items: seq<LineData>,
    paymentMethod: Option<string>,
    scheduledFor: Option<int>,
    notes: Option<string>)

  datatype OrderError =
    | EmptyItems               // "Order must contain at least one item."
    | InvalidProduct(product: nat) // product_id is not the key of an active product
    | MultipleCustomers(phone: string) // get_or_create found more than one customer with the phone
    | BadQuantity              // "Quantity must be at least 1."
    | OutOfStock(product: nat) // the guarded stock update changed no row
    | AddressMissingCustomer   // (as written) the nested address lacks its required customer field
    | CustomerPassedTwice      // (as written) Address.objects.create receives `customer` twice

  /** The quantity of a line: 1 when the line gives none. */
  function Qty(line: LineData): int {
    line.quantity.GetOr(1)
  }

  // ---------------------------------------------------------------------------
  // Validation (runs before `create`, changes nothing)

  /** `id` is the key of a product the `product_id` field accepts: only active products. */
  predicate IsActiveProduct(db: Db, id: nat) {
    id in db.products.rows && db.products.rows[id].isActive
  }

  /** The first line whose product is not an active product, if any. */
  function FirstInvalidLine(db: Db, items: seq<LineData>): (r: Option<nat>)
    ensures r.None? <==> forall k | 0 <= k < |items| :: IsActiveProduct(db, items[k].product)
    ensures r.Some? ==> r.value < |items| && !IsActiveProduct(db, items[r.value].product)
    ensures r.Some? ==> forall k | 0 <= k < r.value :: IsActiveProduct(db, items[k].product)
  {
    if items == [] then None
    else if !IsActiveProduct(db, items[0].product) then Some(0)
    else match FirstInvalidLine(db, items[1..])
      case None => None
      case Some(k) => Some(k + 1)
  }

  /**
   * Validation of `items`: every `product_id` must resolve to an active product, and
   * `validate_items` rejects an empty list.
   */
  function ValidateItems(db: Db, items: seq<LineData>): (r: Result<seq<LineData>, OrderError>)
    ensures r.Ok? <==> |items| > 0 && forall k | 0 <= k < |items| :: IsActiveProduct(db, items[k].product)
    ensures r.Ok? ==> r.value == items
    ensures items == [] ==> r == Err(EmptyItems)
  {
    match FirstInvalidLine(db, items)
    case Some(k) => Err(InvalidProduct(items[k].product))
    case None => if items == [] then Err(EmptyItems) else Ok(items)
  }

  // ---------------------------------------------------------------------------
  // The steps of `create`

  /** The customers whose phone is `phone`. */
  function WithPhone(db: Db, phone: string): set<nat> {
    db.customers.Where((c: Customer) => c.phone == phone)
  }

  datatype Resolved = Resolved(db: Db, customer: nat)

  /** `Customer.objects.get_or_create(phone=..., defaults={name, email})`. */
  function ResolveCustomer(db: Db, c: CustomerData): Result<Resolved, OrderError> {
    var matches := WithPhone(db, c.phone);
    if |matches| == 0 then
      Ok(Resolved(db.(customers := db.customers.Insert(Customer(c.name, c.phone, c.email))), db.customers.next))
    else if |matches| == 1 then
      Ok(Resolved(db, Only(matches)))
    else
      Err(MultipleCustomers(c.phone))
  }

  /** The database with `address`, owned by `customer`, inserted when one is given. */
  function CreateAddress(db: Db, customer: nat, address: Option<AddressData>): Db {
    match address
    case None => db
    case Some(a) => db.(addresses := db.addresses.Insert(Address(customer, a.line1, a.city, a.pincode, a.instructions)))
  }

  /** The key of the address `CreateAddress` inserts, or null. */
  function AddressKey(db: Db, address: Option<AddressData>): Option<nat> {
    if address.Some? then Some(db.addresses.next) else None
  }

  /** The state of the loop over the cart lines: the database, the running total and the items created. */
  datatype Progress = Progress(db: Db, total: int, items: seq<nat>)

  /**
   * One cart line: reject a quantity below 1; decrement the stock only if it covers the quantity
   * (`filter(pk=..., stock__gte=qty).update(stock=F('stock') - qty)`, failing when no row matched);
   * add an item at the product's current price; grow the total.
   */
  function AddLine(p: Progress, order: nat, line: LineData): Result<Progress, OrderError> {
    var qty := Qty(line);
    if qty <= 0 then Err(BadQuantity)
    else if !(line.product in p.db.products.rows && p.db.products.rows[line.product].stock >= qty) then
      Err(OutOfStock(line.product))
    else
      var product := p.db.products.rows[line.product];
      var db1 := p.db.(products := p.db.products.Put(line.product, product.(stock := product.stock - qty)));
      var db2 := db1.(items := db1.items.Insert(OrderItem(order, Some(line.product), qty, product.price)));
      Ok(Progress(db2, p.total + product.price * qty, p.items + [p.db.items.next]))
  }

  /** The loop over `lines`, from the first line to the last, stopping at the first failure. */
  function AddLines(start: Progress, order: nat, lines: seq<LineData>): Result<Progress, OrderError>
    decreases |lines|
  {
    if lines == [] then Ok(start)
    else match AddLines(start, order, lines[..|lines| - 1])
      case Err(e) => Err(e)
      case Ok(p) => AddLine(p, order, lines[|lines| - 1])
  }

  /** `order.total_amount = total; order.save()`. */
  function SetTotal(db: Db, order: nat, total: int): Db {
    if order in db.orders.rows then
      db.(orders := db.orders.Put(order, db.orders.rows[order].(totalAmount := total)))
    else db
  }

  /** A placed order: the committed database, the order's key, its customer and its items in line order. */
  datatype Placed = Placed(db: Db, order: nat, customer: nat, items: seq<nat>)

  /** The database right after the order header is created, before any line is processed. */
  function Header(rc: Resolved, req: OrderData, now: int): Db {
    var db := CreateAddress(rc.db, rc.customer, req.address);
    var aid := AddressKey(rc.db, req.address);
    db.(orders := db.orders.Insert(NewOrder(rc.customer, aid, req.paymentMethod, req.scheduledFor, req.notes, now)))
  }

  /** The body of `transaction.atomic()` in `create`. On `Err`, nothing of it is kept. */
  function Create(db: Db, req: OrderData, now: int): Result<Placed, OrderError> {
    match ResolveCustomer(db, req.customer)
    case Err(e) => Err(e)
    case Ok(rc) =>
      var header := Header(rc, req, now);
      var order := header.orders.next - 1;
      match AddLines(Progress(header, 0, []), order, req.items)
      case Err(e) => Err(e)
      case Ok(p) => Ok(Placed(SetTotal(p.db, order, p.total), order, rc.customer, p.items))
  }

  /** `POST /orders/`: validation, then `create`. */
  function Place(db: Db, req: OrderData, now: int): Result<Placed, OrderError> {
    match ValidateItems(db, req.items)
    case Err(e) => Err(e)
    case Ok(_) => Create(db, req, now)
  }

  /** The database after the request: the committed state on success, the old one on failure. */
  function Commit(db: Db, r: Result<Placed, OrderError>): Db {
    if r.Ok? then r.value.db else db
  }

  // ---------------------------------------------------------------------------
  // The nested address as written

  /**
   * The nested address as `AddressSerializer` accepts it: its field list includes the
   * `customer` foreign key, which the model declares non-null, so the field is required.
   */
  datatype AddressPayload = AddressPayload(
    customer: Option<nat>, line1: string, city: string, pincode: string, instructions: Option<string>)

  /** Validation of the nested address as written: a payload without `customer` is rejected. */
  function ValidateAddressAsWritten(a: AddressPayload): (r: Result<AddressPayload, OrderError>)
    ensures r.Ok? <==> a.customer.Some?
    ensures r.Ok? ==> r.value == a
  {
    if a.customer.None? then Err(AddressMissingCustomer) else Ok(a)
  }

  /**
   * `Address.objects.create(customer=customer, **address_data)` as written: a validated payload
   * still holds `customer`, so the keyword arrives twice and the call raises.
   */
  function CreateAddressAsWritten(db: Db, customer: nat, a: AddressPayload): (r: Result<Db, OrderError>)
    ensures a.customer.Some? ==> r == Err(CustomerPassedTwice)
  {
    if a.customer.Some? then Err(CustomerPassedTwice)
    else Ok(db.(addresses := db.addresses.Insert(Address(customer, a.line1, a.city, a.pincode, a.instructions))))
  }

  /** As written, no address payload survives both validation and `create`: every order with an address fails. */
  lemma AddressNeverStoredAsWritten(db: Db, customer: nat, a: AddressPayload)
    ensures ValidateAddressAsWritten(a).Err? || CreateAddressAsWritten(db, customer, ValidateAddressAsWritten(a).value).Err?
  {
  }

  /** The address of the repository's own order test (no `customer` key) is rejected as written. */
  lemma TestAddressRejectedAsWritten()
    ensures ValidateAddressAsWritten(AddressPayload(None, "Addr", "City", "000001", None)) == Err(AddressMissingCustomer)
  {
  }

  // ---------------------------------------------------------------------------
  // The transaction, step by step

  /** A failure of an earlier line is the failure of the whole loop. */
  lemma {:induction false} AddLinesFailureSticks(start: Progress, order: nat, lines: seq<LineData>, n: nat)
    requires n <= |lines|
    requires AddLines(start, order, lines[..n]).Err?
    ensures AddLines(start, order, lines) == AddLines(start, order, lines[..n])
    decreases |lines|
  {
    if n < |lines| {
      var init := lines[..|lines| - 1];
      assert init[..n] == lines[..n];
      AddLinesFailureSticks(start, order, init, n);
    } else {
      assert lines[..n] == lines;
    }
  }

  /** `Customer.objects.get_or_create` on the store: returns the customer's key. */
  method GetOrCreateCustomer(store: Store, c: CustomerData) returns (r: Result<nat, OrderError>)
    modifies store
    ensures var spec := ResolveCustomer(old(store.State()), c);
            && (spec.Ok? ==> r == Ok(spec.value.customer) && store.State() == spec.value.db)
            && (spec.Err? ==> r == Err(spec.error) && store.State() == old(store.State()))
  {
    var matches := WithPhone(store.State(), c.phone);
    if |matches| == 0 {
      r := Ok(store.customers.next);
      store.customers := store.customers.Insert(Customer(c.name, c.phone, c.email));
    } else if |matches| == 1 {
      r := Ok(Only(matches));
    } else {
      r := Err(MultipleCustomers(c.phone));
    }
  }

  /** The optional `Address.objects.create` and `Order.objects.create(..., total_amount=0)`: returns the order's key. */
  method CreateHeader(store: Store, customer: nat, req: OrderData, now: int) returns (order: nat)
    modifies store
    ensures store.State() == Header(Resolved(old(store.State()), customer), req, now)
    ensures order == store.orders.next - 1 && order in store.orders.rows
  {
    var address: Option<nat> := None;
    if req.address.Some? {
      var a := req.address.value;
      address := Some(store.addresses.next);
      store.addresses := store.addresses.Insert(Address(customer, a.line1, a.city, a.pincode, a.instructions));
    }
    order := store.orders.next;
    store.orders := store.orders.Insert(NewOrder(customer, address, req.paymentMethod, req.scheduledFor, req.notes, now));
  }

  /**
   * The `for item in items_data` loop: returns the running total and the keys of the items it
   * created. On success the store is as `AddLines` says; on failure the caller rolls back.
   */
  method AddLinesInPlace(store: Store, order: nat, lines: seq<LineData>) returns (r: Result<(int, seq<nat>), OrderError>)
    modifies store
    ensures var spec := AddLines(Progress(old(store.State()), 0, []), order, lines);
            && (spec.Ok? ==> r == Ok((spec.value.total, spec.value.items)) && store.State() == spec.value.db)
            && (spec.Err? ==> r == Err(spec.error))
    ensures store.orders == old(store.orders)
  {
    ghost var start := Progress(store.State(), 0, []);
    var total := 0;
    var created: seq<nat> := [];
    var i := 0;
    while i < |lines|
      invariant 0 <= i <= |lines|
      invariant AddLines(start, order, lines[..i]) == Ok(Progress(store.State(), total, created))
      invariant store.orders == old(store.orders)
    {
      assert lines[..i + 1][..i] == lines[..i];
      var line := lines[i];
      var qty := line.quantity.GetOr(1);
      if qty <= 0 {
        AddLinesFailureSticks(start, order, lines, i + 1);
        return Err(BadQuantity);
      }
      // Product.objects.filter(pk=..., stock__gte=qty).update(stock=F('stock') - qty)
      if !(line.product in store.products.rows && store.products.rows[line.product].stock >= qty) {
        AddLinesFailureSticks(start, order, lines, i + 1);
        return Err(OutOfStock(line.product));
      }
      var product := store.products.rows[line.product];
      store.products := store.products.Put(line.product, product.(stock := product.stock - qty));
      created := created + [store.items.next];
      store.items := store.items.Insert(OrderItem(order, Some(line.product), qty, product.price));
      total := total + product.price * qty;
      i := i + 1;
    }
    assert lines[..i] == lines;
    return Ok((total, created));
  }

  /**
   * `OrderSerializer.is_valid()` followed by `create`: the store ends up as `Place` says,
   * and on any failure every table is as it was (the transaction is rolled back).
   */
  method PlaceOrder(store: Store, req: OrderData, now: int) returns (r: Result<nat, OrderError>)
    modifies store
    ensures var spec := Place(old(store.State()), req, now);
            && (spec.Ok? ==> r == Ok(spec.value.order))
            && (spec.Err? ==> r == Err(spec.error))
            && store.State() == Commit(old(store.State()), spec)
  {
    var valid := ValidateItems(store.State(), req.items);
    if valid.Err? {
      return Err(valid.error);
    }

    // with transaction.atomic():
    var savepoint := store.State();
    var customer := GetOrCreateCustomer(store, req.customer);
    if customer.Err? {
      return Err(customer.error);
    }
    ghost var rc := Resolved(store.State(), customer.value);
    var order := CreateHeader(store, customer.value, req, now);
    ghost var header := store.State();
    var lines := AddLinesInPlace(store, order, req.items);
    if lines.Err? {
      store.Restore(savepoint);
      return Err(lines.error);
    }
    // order.total_amount = total; order.save()
    store.orders := store.orders.Put(order, store.orders.rows[order].(totalAmount := lines.value.0));
    return Ok(order);
  }
}

=== FILE: text.dfy ===
/**
 * The text conversions the catalog importer relies on, as Python performs them: `str.strip()`,
 * `str.lower()` for the `is_active` flag (on ASCII letters only, which decides membership in
 * `('1', 'true', 'yes')` exactly as Python does: the only non-ASCII characters Python lowers into
 * ASCII are U+0130 and U+212A, giving `i̇` and `k`, and no word of the three holds either),
 * `int(str)` for the stock (which trims the `isspace` characters other than the separators
 * U+001C to U+001F), and the conversion of a price string to a two-place decimal when the product is saved (`Decimal(str)` followed by rounding to
 * two places, half to even, in a ten-digit column). Only ASCII digits are recognised.
 */
module Text {
  import opened Wrappers
  import opened Models

  // ---------------------------------------------------------------------------
  // Whitespace

  /** Python's `str.isspace()`. */
  predicate IsSpace(c: char) {
    || ('\t' <= c <= '\r')
    || ('\U{1C}' <= c <= ' ')
    || c == '\U{85}' || c == '\U{A0}' || c == '\U{1680}'
    || ('\U{2000}' <= c <= '\U{200A}')
    || c == '\U{2028}' || c == '\U{2029}' || c == '\U{202F}' || c == '\U{205F}' || c == '\U{3000}'
  }

  /** Drops leading whitespace. */
  function StripLeft(s: string): string
    decreases |s|
  {
    if s != [] && IsSpace(s[0]) then StripLeft(s[1..]) else s
  }

  /** Drops trailing whitespace. */
  function StripRight(s: string): string
    decreases |s|
  {
    if s != [] && IsSpace(s[|s| - 1]) then StripRight(s[..|s| - 1]) else s
  }

  /** `str.strip()`: the text between the leading and the trailing whitespace. */
  function Strip(s: string): string {
    StripRight(StripLeft(s))
  }

  /** `StripLeft` keeps a suffix that does not start with whitespace, and drops only whitespace. */
  lemma {:induction false} StripLeftDrops(s: string)
    ensures var r := StripLeft(s);
            && |r| <= |s| && r == s[|s| - |r|..]
            && (r == [] || !IsSpace(r[0]))
            && (forall k | 0 <= k < |s| - |r| :: IsSpace(s[k]))
    decreases |s|
  {
    if s != [] && IsSpace(s[0]) {
      StripLeftDrops(s[1..]);
      var r := StripLeft(s);
      assert s[1..][|s| - 1 - |r|..] == s[|s| - |r|..];
      forall k | 0 <= k < |s| - |r| ensures IsSpace(s[k]) {
        assert k > 0 ==> s[k] == s[1..][k - 1];
      }
    }
  }

  /** `StripRight` keeps a prefix that does not end with whitespace, and drops only whitespace. */
  lemma {:induction false} StripRightDrops(s: string)
    ensures var r := StripRight(s);
            && |r| <= |s| && r == s[..|r|]
            && (r == [] || !IsSpace(r[|r| - 1]))
            && (forall k | |r| <= k < |s| :: IsSpace(s[k]))
    decreases |s|
  {
    if s != [] && IsSpace(s[|s| - 1]) {
      StripRightDrops(s[..|s| - 1]);
      var r := StripRight(s);
      assert s[..|s| - 1][..|r|] == s[..|r|];
      forall k | |r| <= k < |s| ensures IsSpace(s[k]) {
        assert k < |s| - 1 ==> s[k] == s[..|s| - 1][k];
      }
    }
  }

  /**
   * `Strip` keeps the slice of the text between its leading and its trailing whitespace: the
   * slice neither starts nor ends with whitespace, and everything around it is whitespace.
   */
  lemma StripDrops(s: string)
    ensures |StripLeft(s)| <= |s|
    ensures var r, i := Strip(s), |s| - |StripLeft(s)|;
            && i + |r| <= |s| && r == s[i..i + |r|]
            && (r == [] || (!IsSpace(r[0]) && !IsSpace(r[|r| - 1])))
            && (forall k | 0 <= k < i :: IsSpace(s[k]))
            && (forall k | i + |r| <= k < |s| :: IsSpace(s[k]))
  {
    var l := StripLeft(s);
    StripLeftDrops(s);
    StripRightDrops(l);
    SliceOfSuffix(s, l, StripRight(l));
  }

  /** A prefix `r` of a suffix `l` of `s` is a slice of `s`, and what follows it in `l` follows it in `s`. */
  lemma SliceOfSuffix(s: string, l: string, r: string)
    requires |l| <= |s| && l == s[|s| - |l|..]
    requires |r| <= |l| && r == l[..|r|]
    requires forall k | |r| <= k < |l| :: IsSpace(l[k])
    ensures var i := |s| - |l|;
            && r == s[i..i + |r|]
            && (forall k | i + |r| <= k < |s| :: IsSpace(s[k]))
  {
    var i := |s| - |l|;
    forall k | i + |r| <= k < |s| ensures IsSpace(s[k]) {
      assert s[k] == l[k - i];
    }
  }

  /**
   * The whitespace `int(str)` trims: CPython turns non-ASCII whitespace into spaces and then skips
   * only the ASCII spaces of C's `isspace`, so the separators U+001C to U+001F are kept.
   */
  predicate IsIntSpace(c: char) {
    IsSpace(c) && !('\U{1C}' <= c <= '\U{1F}')
  }

  /** Drops leading whitespace as `int(str)` does. */
  function TrimIntLeft(s: string): string
    decreases |s|
  {
    if s != [] && IsIntSpace(s[0]) then TrimIntLeft(s[1..]) else s
  }

  /** Drops trailing whitespace as `int(str)` does. */
  function TrimIntRight(s: string): string
    decreases |s|
  {
    if s != [] && IsIntSpace(s[|s| - 1]) then TrimIntRight(s[..|s| - 1]) else s
  }

  /** The text `int(str)` reads once its surrounding whitespace is skipped. */
  function TrimInt(s: string): string {
    TrimIntRight(TrimIntLeft(s))
  }

  /** Text that neither starts nor ends with whitespace is its own strip, and `int()` trims nothing from it. */
  lemma StripTrimmed(s: string)
    requires s == [] || (!IsSpace(s[0]) && !IsSpace(s[|s| - 1]))
    ensures Strip(s) == s
    ensures TrimInt(s) == s
  {
  }

  /** Stripping twice is stripping once. */
  lemma StripIdempotent(s: string)
    ensures Strip(Strip(s)) == Strip(s)
  {
    StripDrops(s);
    StripTrimmed(Strip(s));
  }

  // ---------------------------------------------------------------------------
  // Case

  /** `str.lower()` on ASCII letters; every other character is kept. */
  function AsciiLower(s: string): string
  {
    seq(|s|, k requires 0 <= k < |s| => if 'A' <= s[k] <= 'Z' then (s[k] as int + 32) as char else s[k])
  }

  /** `str.upper()` on ASCII letters; every other character is kept. */
  function AsciiUpper(s: string): string
  {
    seq(|s|, k requires 0 <= k < |s| => if 'a' <= s[k] <= 'z' then (s[k] as int - 32) as char else s[k])
  }

  /** Lowering after raising or lowering gives the same text: case is all `AsciiLower` keeps of a letter. */
  lemma LowerForgetsCase(s: string)
    ensures AsciiLower(AsciiUpper(s)) == AsciiLower(s)
    ensures AsciiLower(AsciiLower(s)) == AsciiLower(s)
  {
  }

  // ---------------------------------------------------------------------------
  // Digits

  predicate IsDigit(c: char) {
    '0' <= c <= '9'
  }

  predicate AllDigits(s: string) {
    forall k | 0 <= k < |s| :: IsDigit(s[k])
  }

  function DigitValue(c: char): nat
    requires IsDigit(c)
  {
    c as int - '0' as int
  }

  function DigitChar(d: nat): (c: char)
    requires d < 10
    ensures IsDigit(c) && DigitValue(c) == d
  {
    ('0' as int + d) as char
  }

  /** The number a run of decimal digits denotes. */
  function DigitsValue(s: string): nat
    requires AllDigits(s)
    decreases |s|
  {
    if s == [] then 0 else DigitsValue(s[..|s| - 1]) * 10 + DigitValue(s[|s| - 1])
  }

  function Pow10(n: nat): (r: nat)
    ensures r >= 1
  {
    if n == 0 then 1 else 10 * Pow10(n - 1)
  }

  /** `str(n)` for a natural number. */
  function NatText(n: nat): (r: string)
    ensures r != [] && AllDigits(r)
    decreases n
  {
    if n < 10 then [DigitChar(n)] else NatText(n / 10) + [DigitChar(n % 10)]
  }

  /** Reading back the decimal text of a number gives the number. */
  lemma {:induction false} NatTextRoundTrip(n: nat)
    ensures DigitsValue(NatText(n)) == n
    decreases n
  {
    if n >= 10 {
      NatTextRoundTrip(n / 10);
      var t := NatText(n);
      assert t[..|t| - 1] == NatText(n / 10);
    }
  }

  /** `m` followed by `n` zeros: `m` times ten to the `n`. */
  function Shifted(m: nat, n: nat): (r: nat)
    decreases n
  {
    if n == 0 then m else 10 * Shifted(m, n - 1)
  }

  /** `m` with its last `n` decimal digits dropped. */
  function Truncated(m: nat, n: nat): nat
    decreases n
  {
    if n == 0 then m else Truncated(m / 10, n - 1)
  }

  /** The number the last `n` decimal digits of `m` denote. */
  function LowDigits(m: nat, n: nat): nat
    decreases n
  {
    if n == 0 then 0 else m % 10 + 10 * LowDigits(m / 10, n - 1)
  }

  /** Shifting by `n` places is multiplying by ten to the `n`. */
  lemma {:induction false} ShiftedIsProduct(m: nat, n: nat)
    ensures Shifted(m, n) == m * Pow10(n)
    decreases n
  {
    if n > 0 {
      ShiftedIsProduct(m, n - 1);
      assert m * (10 * Pow10(n - 1)) == 10 * (m * Pow10(n - 1));
    }
  }

  /** Dropping `n` digits and putting them back gives the number; the dropped part is below ten to the `n`. */
  lemma {:induction false} TruncatedAndLowDigits(m: nat, n: nat)
    ensures Shifted(Truncated(m, n), n) + LowDigits(m, n) == m
    ensures LowDigits(m, n) < Pow10(n)
    decreases n
  {
    if n > 0 {
      TruncatedAndLowDigits(m / 10, n - 1);
      assert Shifted(Truncated(m, n), n) == 10 * Shifted(Truncated(m / 10, n - 1), n - 1);
    }
  }

  /** The digits of `a` followed by those of `b` denote `a` shifted left by `|b|` places plus `b`. */
  lemma {:induction false} DigitsValueConcat(a: string, b: string)
    requires AllDigits(a) && AllDigits(b)
    ensures AllDigits(a + b)
    ensures DigitsValue(a + b) == Shifted(DigitsValue(a), |b|) + DigitsValue(b)
    decreases |b|
  {
    if b == [] {
      assert a + b == a;
    } else {
      var b' := b[..|b| - 1];
      assert AllDigits(b');
      assert (a + b)[..|a + b| - 1] == a + b';
      DigitsValueConcat(a, b');
    }
  }

  // ---------------------------------------------------------------------------
  // int(str)

  /** The text with every underscore removed. */
  function NoUnderscores(s: string): string
    decreases |s|
  {
    if s == [] then []
    else
      var init := NoUnderscores(s[..|s| - 1]);
      if s[|s| - 1] == '_' then init else init + [s[|s| - 1]]
  }

  /** Removing the underscores leaves none, and text without underscores is kept as it is. */
  lemma {:induction false} NoUnderscoresDrops(s: string)
    ensures |NoUnderscores(s)| <= |s|
    ensures forall k | 0 <= k < |NoUnderscores(s)| :: NoUnderscores(s)[k] != '_'
    ensures (forall k | 0 <= k < |s| :: s[k] != '_') ==> NoUnderscores(s) == s
    decreases |s|
  {
    if s != [] {
      var init := s[..|s| - 1];
      NoUnderscoresDrops(init);
      assert (forall k | 0 <= k < |s| :: s[k] != '_') ==> (forall k | 0 <= k < |init| :: init[k] != '_');
      assert s == init + [s[|s| - 1]];
    }
  }

  /** Removing the underscores from digits and underscores leaves digits. */
  lemma {:induction false} NoUnderscoresDigits(s: string)
    requires forall k | 0 <= k < |s| :: IsDigit(s[k]) || s[k] == '_'
    ensures AllDigits(NoUnderscores(s))
    decreases |s|
  {
    if s != [] {
      NoUnderscoresDigits(s[..|s| - 1]);
    }
  }

  /**
   * The digit part `int()` accepts: digits, where an underscore may only stand between two digits.
   */
  predicate Grouped(s: string) {
    && s != [] && IsDigit(s[0]) && IsDigit(s[|s| - 1])
    && (forall k | 0 <= k < |s| :: IsDigit(s[k]) || (s[k] == '_' && k + 1 < |s| && IsDigit(s[k + 1])))
  }

  /** A leading sign, split off the text. */
  function Sign(t: string): (bool, string) {
    if t != [] && t[0] == '-' then (true, t[1..])
    else if t != [] && t[0] == '+' then (false, t[1..])
    else (false, t)
  }

  function Signed(negative: bool, n: nat): int {
    if negative then -(n as int) else n
  }

  /** `int(s)` on a string: `None` stands for the `ValueError` Python raises. */
  function ParseInt(s: string): Option<int> {
    var (negative, body) := Sign(TrimInt(s));
    if Grouped(body) then
      NoUnderscoresDigits(body);
      Some(Signed(negative, DigitsValue(NoUnderscores(body))))
    else None
  }

  /** `str(i)`. */
  function IntText(i: int): (r: string)
    ensures r != []
  {
    if i < 0 then "-" + NatText(-i) else NatText(i)
  }

  /** A non-empty run of digits is grouped and has no underscores to drop. */
  lemma DigitsGrouped(s: string)
    requires s != [] && AllDigits(s)
    ensures Grouped(s) && NoUnderscores(s) == s
  {
    NoUnderscoresDrops(s);
  }

  /** The text of a number, with an optional minus sign, splits back into sign and digits. */
  lemma SignOfText(negative: bool, digits: string)
    requires digits != [] && AllDigits(digits)
    ensures var t := (if negative then "-" else "") + digits;
            Strip(t) == t && TrimInt(t) == t && NoUnderscores(t) == t && Sign(t) == (negative, digits)
  {
    SignedText(negative, digits);
  }

  /**
   * A body that starts with a digit, does not end in whitespace and holds no underscore, with an
   * optional minus sign in front, is kept whole by strip and splits back into sign and body.
   */
  lemma SignedText(negative: bool, body: string)
    requires body != [] && IsDigit(body[0]) && !IsSpace(body[|body| - 1])
    requires forall k | 0 <= k < |body| :: body[k] != '_'
    ensures var t := (if negative then "-" else "") + body;
            Strip(t) == t && TrimInt(t) == t && NoUnderscores(t) == t && Sign(t) == (negative, body)
  {
    var t := (if negative then "-" else "") + body;
    if negative {
      MinusBodyText(body);
      assert t == "-" + body;
    } else {
      BodyText(body);
      assert t == body;
    }
  }

  /** The positive case of `SignedText`. */
  lemma BodyText(body: string)
    requires body != [] && IsDigit(body[0]) && !IsSpace(body[|body| - 1])
    requires forall k | 0 <= k < |body| :: body[k] != '_'
    ensures Strip(body) == body && TrimInt(body) == body && NoUnderscores(body) == body && Sign(body) == (false, body)
  {
    assert body[0] != '-' && body[0] != '+';
    StripTrimmed(body);
    NoUnderscoresDrops(body);
  }

  /** The negative case of `SignedText`. */
  lemma MinusBodyText(body: string)
    requires body != [] && IsDigit(body[0]) && !IsSpace(body[|body| - 1])
    requires forall k | 0 <= k < |body| :: body[k] != '_'
    ensures var t := "-" + body;
            Strip(t) == t && TrimInt(t) == t && NoUnderscores(t) == t && Sign(t) == (true, body)
  {
    var t := "-" + body;
    assert t[0] == '-' && t[1..] == body;
    assert t[|t| - 1] == body[|body| - 1];
    assert forall k | 1 <= k < |t| :: t[k] == body[k - 1];
    StripTrimmed(t);
    NoUnderscoresDrops(t);
  }

  /** `int(str(i)) == i`. */
  lemma ParseIntRoundTrip(i: int)
    ensures ParseInt(IntText(i)) == Some(i)
  {
    var n: nat := if i < 0 then -i else i;
    var digits := NatText(n);
    assert IntText(i) == (if i < 0 then "-" else "") + digits;
    SignOfText(i < 0, digits);
    DigitsGrouped(digits);
    NatTextRoundTrip(n);
  }

  /** Trimming on the right keeps a first character that is not whitespace to `int()`. */
  lemma {:induction false} TrimIntRightKeepsFirst(s: string)
    requires s != [] && !IsIntSpace(s[0])
    ensures TrimIntRight(s) != [] && TrimIntRight(s)[0] == s[0]
    decreases |s|
  {
    if IsIntSpace(s[|s| - 1]) {
      assert |s| > 1;
      assert s[..|s| - 1][0] == s[0];
      TrimIntRightKeepsFirst(s[..|s| - 1]);
    }
  }

  /**
   * `int()` refuses text that starts with one of the separators U+001C to U+001F, although
   * `str.strip()` drops it as whitespace.
   */
  lemma ParseIntRefusesSeparator(s: string)
    requires s != [] && '\U{1C}' <= s[0] <= '\U{1F}'
    ensures ParseInt(s).None?
    ensures Strip(s) == Strip(s[1..])
  {
    assert TrimIntLeft(s) == s;
    TrimIntRightKeepsFirst(s);
  }

  // ---------------------------------------------------------------------------
  // Decimal(str), rounded to two places

  /** The first position of one of the characters `marks`, if any. */
  function Find(s: string, marks: set<char>): (r: Option<nat>)
    ensures r.Some? ==> r.value < |s|
    decreases |s|
  {
    if s == [] then None
    else if s[0] in marks then Some(0)
    else match Find(s[1..], marks)
      case None => None
      case Some(i) => Some(i + 1)
  }

  const Point: set<char> := {'.'}
  const ExponentMark: set<char> := {'e', 'E'}

  /** A decimal number as written: sign, coefficient digits, and the power of ten they are scaled by. */
  datatype Decimal = Decimal(negative: bool, coefficient: nat, exponent: int)

  /** `digits '.' [digits] | ['.'] digits`: the digits before and after the point. */
  function SplitMantissa(m: string): (r: Option<(string, string)>)
    ensures r.Some? ==> AllDigits(r.value.0) && AllDigits(r.value.1)
  {
    match Find(m, Point)
    case None =>
      if m != [] && AllDigits(m) then Some((m, "")) else None
    case Some(dot) =>
      var whole, fraction := m[..dot], m[dot + 1..];
      if AllDigits(whole) && AllDigits(fraction) && (whole != [] || fraction != []) then Some((whole, fraction))
      else None
  }

  /** The coefficient of `whole.fraction` scaled to a whole number. */
  function Coefficient(whole: string, fraction: string): nat
    requires AllDigits(whole) && AllDigits(fraction)
  {
    Shifted(DigitsValue(whole), |fraction|) + DigitsValue(fraction)
  }

  /** `indicator [sign] digits` after the `e`. */
  function ParseExponent(e: string): Option<int> {
    var (negative, digits) := Sign(e);
    if digits != [] && AllDigits(digits) then Some(Signed(negative, DigitsValue(digits))) else None
  }

  /**
   * `Decimal(s)` for finite numbers: whitespace stripped, underscores ignored, an optional sign,
   * the digits with an optional point, an optional exponent. `None` stands for the error raised;
   * infinities and NaNs, which the column refuses anyway, are refused here as well.
   */
  function ParseDecimal(s: string): Option<Decimal> {
    var (negative, t) := Sign(NoUnderscores(Strip(s)));
    match Find(t, ExponentMark)
    case None =>
      (match SplitMantissa(t)
       case None => None
       case Some((w, f)) => Some(Decimal(negative, Coefficient(w, f), -(|f| as int))))
    case Some(i) =>
      match (SplitMantissa(t[..i]), ParseExponent(t[i + 1..]))
      case (Some((w, f)), Some(e)) => Some(Decimal(negative, Coefficient(w, f), e - |f|))
      case _ => None
  }

  /** `m` times ten to the `shift`, rounded to a whole number, ties to the even neighbour. */
  function ScaleHalfEven(m: nat, shift: int): nat {
    if shift >= 0 then Shifted(m, shift)
    else
      var q, rem, d := Truncated(m, -shift), LowDigits(m, -shift), Pow10(-shift);
      if 2 * rem > d || (2 * rem == d && q % 2 == 1) then q + 1 else q
  }

  /**
   * Scaling up is exact; scaling down gives the nearest whole number, off by at most half a
   * unit, and exactly half a unit only when the result is even.
   */
  lemma ScaleHalfEvenNearest(m: nat, shift: int)
    ensures shift >= 0 ==> ScaleHalfEven(m, shift) == m * Pow10(shift)
    ensures var d: int := Pow10(if shift < 0 then -shift else 0);
            var r: int := ScaleHalfEven(m, shift);
            shift < 0 ==> -d <= 2 * (m - r * d) <= d && (2 * (m - r * d) == d || 2 * (m - r * d) == -d ==> r % 2 == 0)
  {
    if shift >= 0 {
      ShiftedIsProduct(m, shift);
    } else {
      var n: nat := -shift;
      var q := Truncated(m, n);
      TruncatedAndLowDigits(m, n);
      ShiftedIsProduct(q, n);
      HalfEvenStep(m, q, LowDigits(m, n), Pow10(n), ScaleHalfEven(m, shift));
    }
  }

  /** Rounding `m == q * d + rem` to a multiple of `d`, half to even, is off by at most half of `d`. */
  lemma HalfEvenStep(m: int, q: int, rem: int, d: int, r: int)
    requires d >= 1 && 0 <= rem < d && m == q * d + rem
    requires r == if 2 * rem > d || (2 * rem == d && q % 2 == 1) then q + 1 else q
    ensures -d <= 2 * (m - r * d) <= d
    ensures 2 * (m - r * d) == d || 2 * (m - r * d) == -d ==> r % 2 == 0
  {
    if r == q + 1 {
      assert r * d == q * d + d;
    }
  }

  /**
   * A price string saved into a `DecimalField(max_digits=10, decimal_places=2)`: parsed, rounded
   * to whole cents half to even, and refused when it needs more than ten digits.
   */
  function ParsePrice(s: string): (r: Option<int>)
    ensures r.Some? ==> IsMoney(r.value)
  {
    match ParseDecimal(s)
    case None => None
    case Some(d) =>
      var cents := Signed(d.negative, ScaleHalfEven(d.coefficient, d.exponent + 2));
      if IsMoney(cents) then Some(cents) else None
  }

  /** The two-place text of an amount in cents, as `str(Decimal)` prints it: `-12.05`, `0.50`. */
  function CentsText(cents: int): (r: string)
    ensures r != []
  {
    var n: nat := if cents < 0 then -cents else cents;
    var rest := n % 100;
    (if cents < 0 then "-" else "") + NatText(n / 100) + "." + [DigitChar(rest / 10), DigitChar(rest % 10)]
  }

  /** Two digits read as tens and units. */
  lemma TwoDigitsValue(rest: nat)
    requires rest < 100
    ensures var f := [DigitChar(rest / 10), DigitChar(rest % 10)];
            AllDigits(f) && DigitsValue(f) == rest
  {
    var f := [DigitChar(rest / 10), DigitChar(rest % 10)];
    assert f[..1] == [DigitChar(rest / 10)] && f[..1][..0] == [];
    assert DigitsValue(f[..1]) == DigitsValue([]) * 10 + rest / 10 == rest / 10;
    assert DigitsValue(f) == DigitsValue(f[..1]) * 10 + rest % 10;
  }

  /** Digits around a point hold no exponent mark. */
  lemma NoMarkAroundPoint(whole: string, fraction: string)
    requires AllDigits(whole) && AllDigits(fraction)
    ensures forall k | 0 <= k < |whole + "." + fraction| :: (whole + "." + fraction)[k] !in ExponentMark
  {
  }

  /** Text without an exponent mark has none to find. */
  lemma NoMark(m: string)
    requires forall k | 0 <= k < |m| :: m[k] !in ExponentMark
    ensures Find(m, ExponentMark) == None
  {
  }

  /** In digits followed by a point, the point is the first one. */
  lemma PointAfterDigits(whole: string, fraction: string)
    requires AllDigits(whole)
    ensures Find(whole + "." + fraction, Point) == Some(|whole|)
  {
    var m := whole + "." + fraction;
    assert forall k | 0 <= k < |whole| :: m[k] == whole[k];
    FindFirst(m, Point, |whole|);
  }

  /** Whole digits, a point and fraction digits split at the point. */
  lemma SplitAtPoint(whole: string, fraction: string)
    requires AllDigits(whole) && AllDigits(fraction) && whole != []
    ensures SplitMantissa(whole + "." + fraction) == Some((whole, fraction))
  {
    var m := whole + "." + fraction;
    PointAfterDigits(whole, fraction);
    assert m[..|whole|] == whole && m[|whole| + 1..] == fraction;
  }

  /** The whole part and the two digits of an amount in cents make up the amount. */
  lemma CentsCoefficient(n: nat)
    ensures var whole, fraction := NatText(n / 100), [DigitChar(n % 100 / 10), DigitChar(n % 100 % 10)];
            AllDigits(fraction) && Coefficient(whole, fraction) == n
  {
    NatTextRoundTrip(n / 100);
    TwoDigitsValue(n % 100);
    assert Shifted(n / 100, 2) == 100 * (n / 100);
  }

  /** Every amount that fits the column reads back from its own two-place text. */
  lemma ParsePriceRoundTrip(cents: int)
    requires IsMoney(cents)
    ensures ParsePrice(CentsText(cents)) == Some(cents)
  {
    var n: nat := if cents < 0 then -cents else cents;
    var whole, fraction := NatText(n / 100), [DigitChar(n % 100 / 10), DigitChar(n % 100 % 10)];
    var m := whole + "." + fraction;
    var t := CentsText(cents);
    CentsTextParts(cents);
    SignedText(cents < 0, m);
    NoMarkAroundPoint(whole, fraction);
    NoMark(m);
    SplitAtPoint(whole, fraction);
    CentsCoefficient(n);
    PlainDecimal(t, cents < 0, m, whole, fraction);
    assert ParseDecimal(t) == Some(Decimal(cents < 0, n, -2));
    assert ScaleHalfEven(n, 0) == n && Signed(cents < 0, n) == cents;
  }

  /** The two-place text is an optional minus sign, the whole digits, a point and two digits. */
  lemma CentsTextParts(cents: int)
    ensures var n: nat := if cents < 0 then -cents else cents;
            var whole, fraction := NatText(n / 100), [DigitChar(n % 100 / 10), DigitChar(n % 100 % 10)];
            var m := whole + "." + fraction;
            && CentsText(cents) == (if cents < 0 then "-" else "") + m
            && AllDigits(fraction) && m != [] && IsDigit(m[0]) && !IsSpace(m[|m| - 1])
            && (forall k | 0 <= k < |m| :: m[k] != '_')
  {
    var n: nat := if cents < 0 then -cents else cents;
    var whole, fraction := NatText(n / 100), [DigitChar(n % 100 / 10), DigitChar(n % 100 % 10)];
    var m := whole + "." + fraction;
    assert m[0] == whole[0] && m[|m| - 1] == fraction[1];
    assert forall k | 0 <= k < |m| :: m[k] == '.' || IsDigit(m[k]);
  }

  /** A number without an exponent: the coefficient read from its digits, scaled down by the fraction's length. */
  lemma PlainDecimal(t: string, negative: bool, m: string, whole: string, fraction: string)
    requires Sign(NoUnderscores(Strip(t))) == (negative, m)
    requires Find(m, ExponentMark) == None
    requires SplitMantissa(m) == Some((whole, fraction))
    ensures ParseDecimal(t) == Some(Decimal(negative, Coefficient(whole, fraction), -(|fraction| as int)))
  {
  }

  /** `Find` gives the first position holding one of the marks, and `None` only when there is none. */
  lemma {:induction false} FindSpec(s: string, marks: set<char>)
    ensures var r := Find(s, marks);
            && (r.Some? ==> s[r.value] in marks && forall k | 0 <= k < r.value :: s[k] !in marks)
            && (r.None? ==> forall k | 0 <= k < |s| :: s[k] !in marks)
    decreases |s|
  {
    if s != [] && s[0] !in marks {
      FindSpec(s[1..], marks);
      forall k | 1 <= k < |s| ensures s[k] == s[1..][k - 1] {}
    }
  }

  /** `Find` stops at the first position holding one of the marks. */
  lemma {:induction false} FindFirst(s: string, marks: set<char>, i: nat)
    requires i < |s| && s[i] in marks && forall k | 0 <= k < i :: s[k] !in marks
    ensures Find(s, marks) == Some(i)
    decreases i
  {
    if i > 0 {
      assert s[0] !in marks;
      assert s[1..][i - 1] == s[i];
      FindFirst(s[1..], marks, i - 1);
    }
  }
}

=== FILE: views.dfy ===
/**
 * The HTTP views: the product list and detail, which only ever show active products; the order
 * list, newest first and optionally narrowed to one customer phone; and the `update_status`
 * action, which sets any of the six recognised statuses from any status.
 */
module Views {
  import opened Wrappers
  import opened Models
  import opened Database
  import opened Serializers

  // ---------------------------------------------------------------------------
  // Products

  /** The keys `GET /products/` lists: the active products. */
  function ActiveProducts(db: Db): (r: set<nat>)
    ensures forall id :: id in r <==> id in db.products.rows && db.products.rows[id].isActive
  {
    db.products.Where((p: Product) => p.isActive)
  }

  /** `GET /products/<id>/`: the product when it exists and is active, otherwise not found. */
  function ProductDetail(db: Db, id: nat): Option<Product> {
    if id in db.products.rows && db.products.rows[id].isActive then Some(db.products.rows[id]) else None
  }

  /**
   * The detail view finds exactly the products the list shows, and these are exactly the
   * products an order line may name.
   */
  lemma ListDetailAndOrdersAgree(db: Db, id: nat)
    ensures ProductDetail(db, id).Some? <==> id in ActiveProducts(db)
    ensures id in ActiveProducts(db) <==> IsActiveProduct(db, id)
    ensures ProductDetail(db, id).Some? ==> ProductDetail(db, id).value == db.products.rows[id]
  {
  }

  // ---------------------------------------------------------------------------
  // The order list

  /** A `phone` query parameter filters only when it is present and non-empty. */
  predicate Filters(phone: Option<string>) {
    phone.Some? && phone.value != ""
  }

  /** Whether order `id` is in the queryset: every order, or those whose customer has the phone. */
  predicate OrderMatches(db: Db, id: nat, phone: Option<string>) {
    && id in db.orders.rows
    && (Filters(phone) ==>
          var c := db.orders.rows[id].customer;
          c.Some? && c.value in db.customers.rows && db.customers.rows[c.value].phone == phone.value)
  }

  /** Every key in `ids` names an order. */
  predicate AllOrders(db: Db, ids: seq<nat>) {
    forall k | 0 <= k < |ids| :: ids[k] in db.orders.rows
  }

  /** `ids` lists newest first: each order was placed no earlier than the next one. */
  predicate NewestFirst(db: Db, ids: seq<nat>)
    requires AllOrders(db, ids)
  {
    forall k | 0 <= k < |ids| - 1 :: db.orders.rows[ids[k]].placedAt >= db.orders.rows[ids[k + 1]].placedAt
  }

  /** No key is listed twice. */
  predicate Distinct(ids: seq<nat>) {
    forall j, k | 0 <= j < k < |ids| :: ids[j] != ids[k]
  }

  /** Puts order `id` into a newest-first list, after every order placed at or after it. */
  function InsertNewest(db: Db, id: nat, ids: seq<nat>): (r: seq<nat>)
    requires id in db.orders.rows
    requires AllOrders(db, ids) && NewestFirst(db, ids)
    ensures forall x :: x in r <==> x == id || x in ids
    ensures |r| == |ids| + 1 && (r[0] == id || (ids != [] && r[0] == ids[0]))
    ensures Distinct(ids) && id !in ids ==> Distinct(r)
    ensures AllOrders(db, r) && NewestFirst(db, r)
    decreases |ids|
  {
    if ids == [] then [id]
    else if db.orders.rows[ids[0]].placedAt < db.orders.rows[id].placedAt then [id] + ids
    else
      var rest := InsertNewest(db, id, ids[1..]);
      assert ids == [ids[0]] + ids[1..];
      assert Distinct(ids) && id !in ids ==> Distinct([ids[0]] + rest) by {
        if Distinct(ids) && id !in ids {
          assert ids[0] !in ids[1..];
          PrependDistinct(ids[0], rest);
        }
      }
      [ids[0]] + rest
  }

  /** A key put in front of a list without repeats that lacks it gives a list without repeats. */
  lemma PrependDistinct(x: nat, ids: seq<nat>)
    requires Distinct(ids) && x !in ids
    ensures Distinct([x] + ids)
  {
    forall j, k | 0 <= j < k < |ids| + 1
      ensures ([x] + ids)[j] != ([x] + ids)[k]
    {
      assert ([x] + ids)[k] == ids[k - 1];
    }
  }

  /** A newest-first list is ordered between any two positions, not only neighbouring ones. */
  lemma {:induction false} NewestFirstPairwise(db: Db, ids: seq<nat>, j: nat, k: nat)
    requires AllOrders(db, ids) && NewestFirst(db, ids)
    requires j <= k < |ids|
    ensures db.orders.rows[ids[j]].placedAt >= db.orders.rows[ids[k]].placedAt
    decreases k - j
  {
    if j < k {
      NewestFirstPairwise(db, ids, j + 1, k);
    }
  }

  /** The matching orders among the keys below `n`, newest first. */
  function ListBelow(db: Db, phone: Option<string>, n: nat): (r: seq<nat>)
    ensures forall id: nat :: id in r <==> id < n && OrderMatches(db, id, phone)
    ensures Distinct(r)
    ensures AllOrders(db, r) && NewestFirst(db, r)
    decreases n
  {
    if n == 0 then []
    else
      var rest := ListBelow(db, phone, n - 1);
      if OrderMatches(db, n - 1, phone) then InsertNewest(db, n - 1, rest) else rest
  }

  /** `GET /orders/?phone=...`: the queryset, newest placement first. */
  function ListOrders(db: Db, phone: Option<string>): (r: seq<nat>)
    requires db.orders.WellFormed()
    ensures forall id: nat :: id in r <==> OrderMatches(db, id, phone)
    ensures Distinct(r)
    ensures AllOrders(db, r) && NewestFirst(db, r)
  {
    ListBelow(db, phone, db.orders.next)
  }

  /**
   * With a non-empty phone the list holds exactly the orders whose customer has that phone;
   * without one (or with an empty one) it holds every order.
   */
  lemma ListOrdersFilter(db: Db, phone: Option<string>, id: nat)
    requires Valid(db)
    ensures !Filters(phone) ==> (id in ListOrders(db, phone) <==> id in db.orders.rows)
    ensures Filters(phone) ==>
              (id in ListOrders(db, phone) <==>
                 && id in db.orders.rows && db.orders.rows[id].customer.Some?
                 && db.customers.rows[db.orders.rows[id].customer.value].phone == phone.value)
  {
  }

  // ---------------------------------------------------------------------------
  // update_status

  datatype StatusReply =
    | StatusOk(newStatus: string)  // 200 {'status': 'ok', 'new_status': ...}
    | InvalidStatus                // 400 {'error': 'invalid status'}
    | NotFound                     // 404 from get_object

  /** Whether a submitted value is one of the six status codes (a missing or empty value is not). */
  predicate Recognised(statusVal: Option<string>) {
    statusVal.Some? && statusVal.value != "" && StatusFromCode(statusVal.value).Some?
  }

  /**
   * `POST /orders/<id>/update_status/`: the order is looked up in the (phone-filtered) queryset;
   * a recognised value is stored, anything else is refused with nothing changed.
   */
  function UpdateStatus(db: Db, id: nat, phone: Option<string>, statusVal: Option<string>): (Db, StatusReply) {
    if !OrderMatches(db, id, phone) then (db, NotFound)
    else if Recognised(statusVal) then
      var s := StatusFromCode(statusVal.value).value;
      (db.(orders := db.orders.Put(id, db.orders.rows[id].(status := s))), StatusOk(Code(s)))
    else (db, InvalidStatus)
  }

  /**
   * Any of the six statuses can be set from any status: the reply is ok with that status's code,
   * the order holds exactly that status with every other field kept, and nothing else changes.
   */
  lemma UpdateStatusSets(db: Db, id: nat, phone: Option<string>, s: Status)
    requires OrderMatches(db, id, phone)
    ensures var (after, reply) := UpdateStatus(db, id, phone, Some(Code(s)));
            && reply == StatusOk(Code(s))
            && after.orders.rows.Keys == db.orders.rows.Keys
            && after.orders.next == db.orders.next
            && after.orders.rows[id] == db.orders.rows[id].(status := s)
            && (forall o | o in db.orders.rows && o != id :: after.orders.rows[o] == db.orders.rows[o])
            && after == db.(orders := after.orders)
  {
    StatusCodeRoundTrip(s);
  }

  /** A missing, empty or unknown value is refused and the database is left as it was. */
  lemma UpdateStatusRejects(db: Db, id: nat, phone: Option<string>, statusVal: Option<string>)
    requires OrderMatches(db, id, phone)
    requires statusVal.None? || forall s: Status :: Code(s) != statusVal.value
    ensures UpdateStatus(db, id, phone, statusVal) == (db, InvalidStatus)
  {
  }

  /** An order outside the queryset is not found, whatever the value, and nothing changes. */
  lemma UpdateStatusNotFound(db: Db, id: nat, phone: Option<string>, statusVal: Option<string>)
    requires !OrderMatches(db, id, phone)
    ensures UpdateStatus(db, id, phone, statusVal) == (db, NotFound)
  {
  }

  /** Setting the same status twice has the effect of setting it once. */
  lemma UpdateStatusIdempotent(db: Db, id: nat, phone: Option<string>, statusVal: Option<string>)
    ensures var (once, r1) := UpdateStatus(db, id, phone, statusVal);
            var (twice, r2) := UpdateStatus(once, id, phone, statusVal);
            twice == once && r2 == r1
  {
    var (once, r1) := UpdateStatus(db, id, phone, statusVal);
    if r1.StatusOk? {
      assert once.orders.rows[id] == db.orders.rows[id].(status := once.orders.rows[id].status);
      assert once.customers == db.customers;
      assert once.orders.rows[id].(status := once.orders.rows[id].status) == once.orders.rows[id];
      assert once.orders.rows[id := once.orders.rows[id]] == once.orders.rows;
    }
  }

  /** A status update keeps the database invariant. */
  lemma UpdateStatusPreservesValid(db: Db, id: nat, phone: Option<string>, statusVal: Option<string>)
    requires Valid(db)
    ensures Valid(UpdateStatus(db, id, phone, statusVal).0)
  {
  }

  /** `update_status` on the live database: `order.status = ...; order.save()`. */
  method UpdateStatusInPlace(store: Store, id: nat, phone: Option<string>, statusVal: Option<string>)
    returns (reply: StatusReply)
    modifies store
    ensures (store.State(), reply) == UpdateStatus(old(store.State()), id, phone, statusVal)
  {
    if !OrderMatches(store.State(), id, phone) {
      return NotFound;
    }
    if statusVal.Some? && statusVal.value != "" {
      var found := StatusFromCode(statusVal.value);
      if found.Some? {
        var order := store.orders.rows[id];
        store.orders := store.orders.Put(id, order.(status := found.value));
        return StatusOk(Code(found.value));
      }
    }
    return InvalidStatus;
  }
}

=== FILE: wrappers.dfy ===
/** Optional values and success-or-error results, used for Python's `None` and for raised exceptions. */
module Wrappers {

  datatype Option<T> = None | Some(value: T) {

    /** The value, or `default` when there is none (Python's `d.get(key, default)`). */
    function GetOr(default: T): T {
      match this
      case Some(v) => v
      case None => default
    }
  }

  datatype Result<T, E> = Ok(value: T) | Err(error: E)
}
